=== FILE: README.md ===
# tts-server core, modelled in Dafny

This project models the decision-making core of `tts-server`, a Python text-to-speech server with host audio playback and voice cloning. The core is five parts:

- **Capture hub** (`example_of_sd_recording.py`): `SoundDeviceAudioStreamAdapter` numbers captured audio blocks and fans them out to bounded per-subscriber queues. Subscribers are identified by ids that are never reused. (`capture_hub.dfy`, module `CaptureHub`)
- **Synthesise-and-play orchestrator** (`tts_server/services/synth_play.py`): `SynthPlayService.synthesize_and_play` reports SYNTHESIZING, PLAYING, COMPLETED or ERROR to an optional observer around a synthesis call and a playback call. (`synth_play.dfy`, module `SynthPlay`)
- **Playback decisions** (`tts_server/adapters/audio/sounddevice.py`, `tts_server/services/audio_playback.py`):
  - output-device choice;
  - WAV path validation and decoding;
  - 16-bit PCM decoding and multi-channel reshaping;
  - the `is_playing` flag.

  (`playback.dfy`, module `Playback`; `playback_service.dfy`, module `PlaybackService`)
- **Coqui adapter** (`tts_server/adapters/tts/coqui.py`):
  - lazy, one-time model loading;
  - mapping requests and voices onto a synthesis call;
  - the duration estimate;
  - 4096-byte streaming;
  - voice-clone record construction.

  (`coqui.dfy`, module `Coqui`)
- **Voice repository** (`tts_server/adapters/repository/repository.py`): `FileVoiceRepository` keeps an ordered JSON index of voice records keyed by id and one `{id}.voice` data file per voice. (`repository.dfy`, module `Repository`)

Shared modules:
- `common.dfy`: Python outcomes as `Result` (returned value or raised exception) and `Option`.
- `text.dfy`: ASCII `lower()`, `in` on strings, and fixed-width decimal fields.
- `posix_path.dfy`: the `pathlib` operations used: `is_absolute`, `name`, `suffix` and `/`.
- `domain.dfy`: the records of `tts_server/domain/models.py`, plus the canonical text forms of UUIDs and naive datetimes.

Every operation is a pure function or a method over immutable values. The code's locked sections are atomic, so each is one state transition. Everything the code obtains from outside is a parameter of the operation that uses it:

- the sound-device runtime, the `wave` module and the Coqui model;
- the observer callback;
- the clock, `uuid4` and `tempfile`;
- the file system.

Each of these either gives a value or raises.

Where the code disagrees with its own comments or declared types, the model follows the code:

- **Full queue.** On `queue.Full` the capture callback drops the *incoming* frame, although the comment at `example_of_sd_recording.py:176` speaks of dropping the oldest. `CaptureHub.Deliver` and `CaptureHub.OverflowKeepsOldest` state what the code does.
- **`SynthPlayState`.** `synth_play.py` imports it from `tts_server/domain/models.py`, which does not define it. The model defines the four states the service uses.
- **`channels`.** The service reads `tts_response.channels`, but `TTSResponse` (`tts_server/domain/models.py:25-31`) has no such field (see Findings).

## Model

| member | source | states |
|---|---|---|
| `CaptureHub.IsRunning` | example_of_sd_recording.py:74-76 | `is_running` is whether a stream object exists; a valid hub that is not running holds no queued frame |
| `CaptureHub.RunningLifeCycle` | example_of_sd_recording.py:55-119 | A new hub and a stopped one are not running; after `start` the hub runs exactly when it already did or a stream object was assigned, including one whose own `start()` raised |
| `CaptureHub.Init` | example_of_sd_recording.py:55-69 | A new hub has no stream and no subscribers, its first id is 1 and its frame counter 0, and it satisfies the hub invariant |
| `CaptureHub.Start` | example_of_sd_recording.py:78-92 | Starting a running hub does nothing. Otherwise the frame counter is reset to 0 even if creating the stream raises; a stream whose `start()` raised stays assigned. The call succeeds exactly when the stream opened, and otherwise raises the runtime's exception |
| `CaptureHub.Stop` | example_of_sd_recording.py:94-119 | After `stop` no stream is running and the subscriber table is empty; the id counter, frame counter and format are kept |
| `CaptureHub.Capacity` | example_of_sd_recording.py:131 | A queue's capacity equals `max(1, max_frames)`: `max_frames` when that is positive, and 1 otherwise |
| `CaptureHub.Subscribe` | example_of_sd_recording.py:121-137 | The returned id is the counter's old value and the counter advances by one. Exactly that id gains an open subscriber with an empty queue; all else is unchanged |
| `CaptureHub.Close` | example_of_sd_recording.py:143-154 | The closed id leaves the table, every other entry is untouched, the stream, counters and format are kept, and closing an unknown id changes nothing |
| `CaptureHub.Deliver` | example_of_sd_recording.py:170-177 | An open subscriber with room gets the frame appended. A full or closed one keeps its queue exactly: the incoming frame is dropped |
| `CaptureHub.Capture` | example_of_sd_recording.py:156-177 | The frame takes the pre-increment counter as its number and the counter advances by one. Every subscriber in the snapshot is offered that frame and none is added or removed |
| `CaptureHub.Read` | example_of_sd_recording.py:30-42 | A non-blocking read returns nothing, and changes nothing, exactly when the subscriber is missing, closed or empty. Otherwise it removes and returns the head of that queue only |
| `CaptureHub.StartKeepsValid` | example_of_sd_recording.py:78-92 | `start` preserves the hub invariant: ids below the counter, queues within capacity, frames strictly increasing in number and below the counter, and no queued frame while stopped |
| `CaptureHub.SubscribeKeepsValid` | example_of_sd_recording.py:121-137 | `subscribe` preserves the hub invariant and hands out an id not currently in the table |
| `CaptureHub.DeliverKeepsOk` | example_of_sd_recording.py:170-177 | Offering a frame numbered with the current counter keeps a subscriber within capacity and in increasing order, for the advanced counter |
| `CaptureHub.CaptureKeepsValid` | example_of_sd_recording.py:156-177 | A capture while the stream exists preserves the hub invariant |
| `CaptureHub.ReadKeepsValid` | example_of_sd_recording.py:30-42 | A read preserves the hub invariant |
| `CaptureHub.RunKeepsValid` | example_of_sd_recording.py:55-177 | Every sequence of starts, stops, subscribes, closes, captures and reads preserves the hub invariant |
| `CaptureHub.IssuedIdsFresh` | example_of_sd_recording.py:121-137 | Along any run the ids `subscribe` hands out strictly increase. Each lies between the counter before and after the run and was not in the table at the start; the counter grows by exactly the number handed out |
| `CaptureHub.RemovedStaysRemoved` | example_of_sd_recording.py:143-154 | An id that has been handed out and is no longer in the table never reappears, and reading from it yields nothing forever after |
| `CaptureHub.StopIdempotent` | example_of_sd_recording.py:94-109 | Stopping twice is the same as stopping once |
| `CaptureHub.Captures` | example_of_sd_recording.py:156-177 | A burst of captures keeps the subscriber table's ids and the format, and advances the frame counter by the number of blocks |
| `CaptureHub.CapturesFillQueue` | example_of_sd_recording.py:170-177 | A burst of captures appends to an open subscriber's queue exactly the first frames of the burst that fit, numbered consecutively from the counter; the rest are dropped |
| `CaptureHub.FreshSubscriberSeesAllFrames` | example_of_sd_recording.py:121-177 | A subscriber that joins a freshly started hub, with room enough, receives one frame per captured block, numbered 0, 1, ... in order, carrying the blocks' data |
| `CaptureHub.OverflowKeepsOldest` | example_of_sd_recording.py:173-177 | With capacity K, a burst of more than K captures into an empty queue leaves exactly the first K frames of the burst queued |
| `SynthPlay.SynthesizingMessage` | tts_server/services/synth_play.py:38 | The SYNTHESIZING message is `Synthesizing: `, then at most the first 50 characters of the text, then `...` |
| `SynthPlay.Notify` | tts_server/services/synth_play.py:33-35 | Without an observer nothing is reported and nothing raises. With one, it receives exactly the notification, and what it raises is what `notify` raises |
| `SynthPlay.TtsRequestFor` | tts_server/services/synth_play.py:40-44 | The synthesis request carries the text and language unchanged and the voice's id exactly when a voice is given; the format is WAV and the speed 1.0 |
| `SynthPlay.SynthesizeAndPlay` | tts_server/services/synth_play.py:24-67 | The synthesis request is built from the arguments. Playback is requested only after synthesis succeeded, with exactly the synthesised bytes, rate and channel count. Success returns a non-playing status with playback's duration. Without an observer nothing is reported |
| `SynthPlay.ReportedStates` | tts_server/services/synth_play.py:33-67 | Whatever the collaborators and the observer do, the first report is SYNTHESIZING. The call fails exactly when the last report is ERROR and succeeds exactly when the reports are SYNTHESIZING, PLAYING, COMPLETED; ERROR is never followed by another report |
| `SynthPlay.SuccessTrace` | tts_server/services/synth_play.py:37-63 | When synthesis and playback succeed, the observer sees the three reports with their exact messages and the caller gets `is_playing=False` with playback's duration |
| `SynthPlay.SynthesisFailureTrace` | tts_server/services/synth_play.py:37-67 | When synthesis raises `e`, the observer sees SYNTHESIZING then ERROR with `str(e)`, playback is never requested, and `e` escapes |
| `SynthPlay.PlaybackFailureTrace` | tts_server/services/synth_play.py:56-67 | When playback raises `e`, the observer sees SYNTHESIZING, PLAYING, ERROR with `str(e)`, and `e` escapes |
| `SynthPlay.NoObserverSameOutcome` | tts_server/services/synth_play.py:33-35 | Without an observer nothing is reported, and the requests made and the outcome are those a silent observer would produce |
| `SynthPlay.SynthesizeAndPlayAsWritten` | tts_server/services/synth_play.py:50-54 | Against the declared `TTSResponse` record, the service never succeeds and never requests playback |
| `SynthPlay.MissingChannelsBreaksSuccess` | tts_server/services/synth_play.py:50-54 | Against the declared record, a successful synthesis makes the observer see SYNTHESIZING, PLAYING, ERROR, and the call raises AttributeError |
| `Playback.ResolveOutputDevice` | tts_server/adapters/audio/sounddevice.py:41-57 | A configured index wins without a query; a failed query gives the default. Otherwise the result is the first device whose lower-cased name contains `pulse` or `pipewire`, and the default exactly when no device does |
| `Playback.FromBufferInt16` | tts_server/adapters/audio/sounddevice.py:93 | Decoding succeeds exactly for an even number of bytes, giving one little-endian signed 16-bit value per byte pair |
| `Playback.DecodeEncodeInt16` | tts_server/adapters/audio/sounddevice.py:93 | Any sequence of 16-bit values encoded as little-endian bytes decodes back to itself |
| `Playback.EncodeDecodeInt16` | tts_server/adapters/audio/sounddevice.py:93 | Any even-length byte string decodes to values that encode back to the same bytes |
| `Playback.Normalise16` | tts_server/adapters/audio/sounddevice.py:100 | A 16-bit sample divided by 32768 lies in [-1, 1) |
| `Playback.Reshape` | tts_server/adapters/audio/sounddevice.py:96-97 | Reshaping into rows of `channels` succeeds exactly when the sample count divides evenly (else ValueError), and the rows read back in order as the original samples |
| `Playback.ParseAudioData` | tts_server/adapters/audio/sounddevice.py:91-102 | Decoding succeeds iff the bytes are whole samples and, for several channels, whole frames (else ValueError). It yields one value per byte pair, each the 16-bit sample over 32768 and so in [-1, 1): flat for one channel, otherwise rows of `channels` |
| `Playback.FromBufferInt32` | tts_server/adapters/audio/sounddevice.py:80 | Decoding succeeds exactly for a multiple of four bytes (else ValueError), giving one little-endian signed 32-bit value per four bytes |
| `Playback.DecodeFrames` | tts_server/adapters/audio/sounddevice.py:75-83 | Frame bytes decode exactly when the width is 2 or 4 bytes and they are whole samples (else ValueError); each sample is the signed value over 32768 or 2147483648 |
| `Playback.LoadWavFile` | tts_server/adapters/audio/sounddevice.py:59-89 | A missing file raises FileNotFoundError before the suffix is looked at, a non-`.wav` suffix raises ValueError, and a reader failure propagates. An opened file loads exactly when it is 16- or 32-bit with whole samples and whole frames (else ValueError), giving its decoded samples, flat or in rows of `channels`, with its own rate and channel count |
| `Playback.LoadEncodedMono` | tts_server/adapters/audio/sounddevice.py:67-89 | A mono 16-bit file whose frames encode some samples loads as exactly those samples over 32768, with the file's rate |
| `Playback.EncodedFrames` | tts_server/adapters/audio/sounddevice.py:91-116 | A request encoding whole frames of `channels` samples decodes, and its array, from which the duration is computed, has one entry per frame |
| `Playback.Init` | tts_server/adapters/audio/sounddevice.py:18-21 | A new adapter is not playing and keeps the configured device index |
| `Playback.PlaySync` | tts_server/adapters/audio/sounddevice.py:23-39 | The flag is set while the hardware plays and clear afterwards, whether play returned or raised. The device used is the configured one, else the first PulseAudio or PipeWire device in the list, else the system default. The duration is the frame count over the rate; a zero rate raises ZeroDivisionError and a hardware failure propagates |
| `Playback.Play` | tts_server/adapters/audio/sounddevice.py:104-116 | A request that does not decode raises before the flag is touched. Otherwise the flag ends clear; play succeeds exactly when the hardware plays and the rate is non-zero, returning `is_playing=False` with frames over rate as duration; a hardware exception propagates and a zero rate raises ZeroDivisionError |
| `Playback.PlayFile` | tts_server/adapters/audio/sounddevice.py:127-139 | A file that does not load raises before the flag is touched. Otherwise the flag ends clear; play succeeds exactly when the hardware plays and the file's rate is non-zero, returning `is_playing=False` with the file's frame count over its rate; a hardware exception propagates |
| `Playback.IsPlaying` | tts_server/adapters/audio/sounddevice.py:123-125 | `is_playing` reads the flag and has no contract of its own: its values are stated by `Playback.FlagLifeCycle`, and by `Playback.PlaySync` and `Playback.Play` for the time around a play |
| `Playback.FlagLifeCycle` | tts_server/adapters/audio/sounddevice.py:118-125 | `is_playing` is false for a new adapter and after a `stop` whose `sd.stop()` returned; a `stop` that raised leaves it as it was |
| `Playback.Stop` | tts_server/adapters/audio/sounddevice.py:118-121 | When `sd.stop` returns, the flag is cleared; when it raises, the exception escapes and the flag is unchanged |
| `PosixPath.SuffixOfName` | tts_server/adapters/audio/sounddevice.py:64 | A path whose last component is `stem.ext`, with a non-empty dot-free extension, has suffix `.ext` |
| `PlaybackService.CheckWavPath` | tts_server/services/audio_playback.py:53-62 | A path passes exactly when it is absolute, exists and ends in `.wav` in any case. The checks raise ValueError (not absolute), FileNotFoundError (missing) and ValueError (wrong suffix), in that order |
| `PlaybackService.PlayFileVia` | tts_server/services/audio_playback.py:53-64 | A path that passes the checks goes unchanged to the port and the port's result is returned as is; otherwise the port is never called |
| `PlaybackService.PlayFile` | tts_server/services/audio_playback.py:38-64 | Against the sound-device adapter, a refused path leaves the service untouched. If the file then fails to load, the adapter's exception escapes: the reader's own exception, or ValueError for an undecodable file. The call succeeds exactly when the path passes, the file loads, the hardware plays and the rate is non-zero, with the adapter's status; a hardware exception propagates |
| `PlaybackService.PlayRequest` | tts_server/services/audio_playback.py:31-35 | The request handed to the port carries the bytes, rate and channel count exactly as given (one channel by default) |
| `PlaybackService.Play` | tts_server/services/audio_playback.py:13-36 | Undecodable audio leaves the service untouched and raises the decoding error. Otherwise the flag ends clear, and the call succeeds exactly when the hardware plays at a non-zero rate, returning the adapter's status with frames over rate as duration; a hardware exception propagates |
| `PlaybackService.IsPlaying` | tts_server/services/audio_playback.py:70-76 | `is_playing` reports exactly the adapter's flag |
| `PlaybackService.Stop` | tts_server/services/audio_playback.py:66-68 | `stop` adds nothing to the adapter's: same state and same outcome, and the flag is clear when the hardware stop returned |
| `PlaybackService.RelativeAlwaysRefused` | tts_server/services/audio_playback.py:55-56 | A relative path is refused with ValueError whether or not it exists |
| `PlaybackService.UpperCaseWavAccepted` | tts_server/services/audio_playback.py:61-62 | An existing absolute `name.WAV` passes: the suffix test ignores letter case |
| `PlaybackService.MissingBeforeExtension` | tts_server/services/audio_playback.py:58-62 | A missing absolute `name.txt` is reported as not found, not as a wrong extension |
| `PlaybackService.TextFileRefused` | tts_server/services/audio_playback.py:61-62 | An existing absolute `name.txt` is refused for its extension, with the path in the message |
| `Coqui.Init` | tts_server/adapters/tts/coqui.py:27-43 | A new adapter holds no model and has constructed none |
| `Coqui.GetTts` | tts_server/adapters/tts/coqui.py:45-50 | A cached model is returned without constructing another. Without one, a successful construction is cached and counted, and a failed one caches nothing; at most one model is ever constructed |
| `Coqui.LoadedOnce` | tts_server/adapters/tts/coqui.py:45-50 | Once a model is cached, any number of later loads return that same model and leave the adapter unchanged, whatever construction would give |
| `Coqui.SampleRate` | tts_server/adapters/tts/coqui.py:71 | The rate is the synthesizer's output rate when the model has one, otherwise 22050 |
| `Coqui.SpeakerWav` | tts_server/adapters/tts/coqui.py:117 | The speaker reference is the voice's stored file path, and none without a voice |
| `Coqui.SampleCount` | tts_server/adapters/tts/coqui.py:108-110 | The sample count is the bytes after a 44-byte header halved and rounded down, non-negative when the audio holds a header |
| `Coqui.WriteFrameRate` | tts_server/adapters/tts/coqui.py:101 | Setting the WAV frame rate succeeds exactly when the rate is positive, and otherwise raises `wave.Error` |
| `Coqui.CalculateDuration` | tts_server/adapters/tts/coqui.py:106-111 | The duration times the rate equals the sample count; a zero rate raises ZeroDivisionError |
| `Coqui.Synthesize` | tts_server/adapters/tts/coqui.py:113-133 | The engine gets the request's text and language and, as speaker reference, the voice's stored path (none without a voice). A failed load or engine call raises that exception unchanged; with both succeeding, synthesis succeeds exactly when the rate is positive, and a rate of zero or below raises `wave.Error` from the WAV writer. A response is WAV at the model's positive output rate, holds the engine's bytes and has their duration |
| `Coqui.CachedModelIgnoresLoad` | tts_server/adapters/tts/coqui.py:45-50 | Once a model is cached, synthesis gives the same result whatever loading would give, and leaves the adapter as it was |
| `Coqui.StreamChunks` | tts_server/adapters/tts/coqui.py:145-150 | The chunks concatenate back to the audio. Each is non-empty and at most 4096 bytes, all but the last exactly 4096, and there are ceil(n/4096) of them, so empty audio streams nothing |
| `Coqui.SynthesizeStream` | tts_server/adapters/tts/coqui.py:135-150 | Streaming yields chunks exactly when synthesis succeeds, otherwise synthesis's exception. The chunks concatenate to the synthesised audio; there are ceil(n/4096) of them, each non-empty and at most 4096 bytes, all but the last exactly 4096 |
| `Coqui.GetAvailableVoices` | tts_server/adapters/tts/coqui.py:181-189 | The voices are the model's speakers when it has any, otherwise `["default"]`; a failed model load raises the loader's own exception |
| `Coqui.GetSupportedLanguages` | tts_server/adapters/tts/coqui.py:191-199 | The languages are the model's when it has any, otherwise `["en"]`; a failed model load raises the loader's own exception |
| `Coqui.CloneVoice` | tts_server/adapters/tts/coqui.py:152-179 | The temporary `.wav` file is created on every call. Cloning fails with IndexError exactly when there are no samples, leaving that file empty. Otherwise the file holds the first sample, and the voice has the fresh id, the request's name, description and language, the temporary path and `num_samples` in its metadata |
| `Repository.Put` | tts_server/adapters/repository/repository.py:89-91 | Setting a key gives it the new value and leaves every other key's value alone; an existing key keeps the index length and a new key is appended after the existing entries. Keys stay distinct |
| `Repository.PutInPlace` | tts_server/adapters/repository/repository.py:89-91 | Setting a present key replaces its entry at its own position; the entries before and after it stay, in order |
| `Repository.Remove` | tts_server/adapters/repository/repository.py:123-125 | Deleting a key removes it and leaves every other key's value alone; deleting from a dict shortens it by one, and deleting an absent key changes nothing. Keys stay distinct |
| `Repository.RemoveInPlace` | tts_server/adapters/repository/repository.py:123-125 | Deleting a present key of a dict removes exactly its entry; the entries before and after it stay, in order |
| `Repository.VoiceFilePathInjective` | tts_server/adapters/repository/repository.py:54-56 | Two different voices never share a data file path |
| `Repository.VoiceToDict` | tts_server/adapters/repository/repository.py:58-63 | A record has exactly the seven dataclass keys |
| `Repository.IdOf` | tts_server/adapters/repository/repository.py:68 | `UUID(data["id"])` succeeds exactly for canonical UUID text, giving that id |
| `Repository.DictToVoice` | tts_server/adapters/repository/repository.py:65-75 | A record without `id` raises KeyError. A voice read back has the record's id text, name, description and language, the timestamp the record's ISO text denotes, and the record's file path and metadata (absent meaning none and empty) |
| `Repository.FilePathOf` | tts_server/adapters/repository/repository.py:73 | An absent or null `file_path` reads as no path, a string as that path |
| `Repository.MetadataOf` | tts_server/adapters/repository/repository.py:74 | An absent `metadata` reads as the empty dict, an object as its contents |
| `Repository.EntryVoice` | tts_server/adapters/repository/repository.py:99-101 | An index value that is an object is read back as a record; any other value raises TypeError |
| `Repository.RecordRoundTrip` | tts_server/adapters/repository/repository.py:58-75 | Every voice survives conversion to a record and back with every field intact |
| `Repository.MissingMetadata` | tts_server/adapters/repository/repository.py:74 | A record without `metadata` reads back as the same voice with empty metadata |
| `Repository.MissingFilePath` | tts_server/adapters/repository/repository.py:73 | A record without `file_path` reads back as the same voice without a file path |
| `Repository.Init` | tts_server/adapters/repository/repository.py:28-42 | A repository keeps an existing index as it is and starts with an empty one when none exists; the data files are untouched |
| `Repository.Save` | tts_server/adapters/repository/repository.py:77-93 | `save` returns the given voice with its file path set to `{dir}/{id}.voice` and preserves the repository invariant |
| `Repository.Get` | tts_server/adapters/repository/repository.py:95-101 | An id without an entry, or with a null one, gives `None`. Otherwise the entry is read back: its voice is returned, or the exception reading it raised escapes unchanged |
| `Repository.GetVoiceData` | tts_server/adapters/repository/repository.py:103-108 | The data exists exactly when the voice's data file does, and is its contents |
| `Repository.Exists` | tts_server/adapters/repository/repository.py:134-137 | A voice exists exactly when the index has an entry for its id |
| `Repository.ListAll` | tts_server/adapters/repository/repository.py:110-113 | `list_all` raises exactly when some index entry does not read back as a voice; otherwise it returns one voice per entry, in the index's order, each the entry read back |
| `Repository.Delete` | tts_server/adapters/repository/repository.py:115-132 | `delete` answers True exactly when the voice exists, changes nothing when it answers False, and preserves the repository invariant |
| `Repository.NewRepositoryEmpty` | tts_server/adapters/repository/repository.py:39-42 | A repository created without an index lists no voices, and no id exists in it or is found |
| `Repository.SaveThenRead` | tts_server/adapters/repository/repository.py:77-108 | After saving a voice with data `d`, it exists, `get` returns it with its file path set, and `get_voice_data` returns `d` |
| `Repository.SaveKeepsOthers` | tts_server/adapters/repository/repository.py:77-93 | Saving a voice leaves existence, record and data of every other id as they were |
| `Repository.SaveOverwrites` | tts_server/adapters/repository/repository.py:89-91 | Saving an existing id replaces its entry with the new record at the same position and leaves every other entry where it was; saving a new id appends its record after the existing ones |
| `Repository.DeleteAbsent` | tts_server/adapters/repository/repository.py:118-121 | Deleting an absent id answers False and changes nothing |
| `Repository.DeletePresent` | tts_server/adapters/repository/repository.py:123-132 | After deleting a present id the answer is True, it no longer exists, `get` finds nothing and its data is gone |
| `Repository.DeleteKeepsOthers` | tts_server/adapters/repository/repository.py:115-132 | Deleting a voice leaves existence, record and data of every other id as they were |
| `Repository.SaveThenDeleteRestoresIndex` | tts_server/adapters/repository/repository.py:77-132 | Saving a new voice and then deleting it restores the index exactly |
| `Domain.ParseUuid` | tts_server/adapters/repository/repository.py:68 | Parsing an id succeeds exactly for canonical UUID text, giving that text back; anything else is ValueError |
| `Domain.FromIsoFormat` | tts_server/adapters/repository/repository.py:72 | A parsed timestamp comes from text of the `YYYY-MM-DDTHH:MM:SS[.ffffff]` shape; any failure is ValueError |
| `Domain.IsoFormat` | tts_server/adapters/repository/repository.py:62 | `isoformat()` text is 19 characters, or 26 when the microseconds are non-zero |
| `Domain.IsoFormatRoundTrip` | tts_server/adapters/repository/repository.py:62 | Every timestamp written by `isoformat` is read back by `fromisoformat` as itself |

## Findings

| source | as written | input that shows it | evidently intended | confidence | as-written member | corrected member |
|---|---|---|---|---|---|---|
| tts_server/services/synth_play.py:53 | The playback request takes `channels=tts_response.channels`, but `TTSResponse` (tts_server/domain/models.py:25-31) has no `channels` field, so reading it raises AttributeError | Any call whose synthesis returns a `TTSResponse`, e.g. from the Coqui adapter: the observer sees SYNTHESIZING, PLAYING, ERROR and playback is never requested | The synthesis response carries a channel count (the Coqui adapter always writes mono), and the service plays the audio and completes | high; not executed | `SynthPlay.SynthesizeAndPlayAsWritten`, `SynthPlay.MissingChannelsBreaksSuccess` | `SynthPlay.SynthesizeAndPlay`, `SynthPlay.SuccessTrace` |

## Left out

- Threads, locks and `asyncio.to_thread`: each locked section and each awaited call is one atomic step. Interleavings of the capture callback with other operations are not modelled.
- CaptureHub.Read: models only the non-blocking read (`timeout_seconds == 0`). A blocking or timed read that finds an empty queue would wait for a capture; here it would return nothing.
- CaptureHub.Start: input device selection (`_get_device`) is left out, because it only logs and sets a process-wide default and never fails the call. Stream parameters and the stream object are reduced to the running flag. Failures of `stream.stop()` and `stream.close()` in `stop` are only logged, so they do not appear.
- The capture callback is invoked only while a stream exists (`CaptureHub.Step` ignores a capture while stopped). The `indata.copy()` fallback and the frame's numpy array are reduced to a sequence of integers.
- Logging in every module.
- Playback.DecodeFrames: a 32-bit sample over 2147483648 is the exact rational, where float32 would round it to 24 significant bits. A 16-bit sample over 32768 (`Playback.Normalise16`, `Playback.ParseAudioData`) is exact in float32 as well. Durations (`CalculateDuration`, `len / sample_rate`) are exact rationals rather than floats.
- Playback.PlaySync: `sd.play`, `sd.wait`, `sd.stop` and `sd.query_devices` are oracles: a given device list (or its failure) and a given outcome. The buffer size setting is not modelled.
- Playback.LoadWavFile: `wave.open` is an oracle that gives the header fields and frame bytes or raises. The WAV container format is not decoded.
- Coqui.Synthesize: the Coqui model and `_numpy_to_wav_bytes` are together one engine oracle that yields the WAV bytes or raises. The one check of the WAV writer that depends on the model is modelled separately (`WriteFrameRate`, the `setframerate` refusal of a rate of zero or below), so `_calculate_duration` is only reached with a positive rate. Float-to-int16 scaling and the WAV encoding are not modelled. The unused `device` setting is left out.
- Coqui.CloneVoice: `uuid4()`, `tempfile.mktemp` and `datetime.now` are parameters; the name `mktemp(suffix=".wav")` picks is required to end in `.wav`. The temporary file is returned as its path and contents rather than written, and on the IndexError path it is returned empty, as `open(..., "wb")` leaves it.
- Domain.ParseUuid: accepts only the canonical lower-case hyphenated form that `str(UUID)` writes. Python's `UUID()` also accepts upper case, braces, a `urn:uuid:` prefix and unhyphenated hex, which the model refuses with ValueError.
- Domain.FromIsoFormat: accepts only the two shapes `isoformat()` writes for a naive datetime (with or without six fraction digits). Other shapes Python accepts (time zones, a space separator, fewer fraction digits) are refused with ValueError.
- Repository.Save: Python assigns `voice.file_path` on the caller's own object (repository.py:83), so every alias of that voice sees the new path. The model returns an updated record instead. The callers in clone_voice.py:35 and clone_speech.py:60 rebind the returned voice, so they observe the same value.
- Repository.DictToVoice: a record whose `name`, `description` or `language` is not a JSON string, or whose `file_path` or `metadata` has an unexpected type, is refused with TypeError. Python would build a `VoiceModel` holding the foreign value, which the typed record cannot hold.
- Repository: JSON text (`json.dump` with `indent=2, default=str`, and `json.load`) is not modelled. The index is kept as the decoded value and assumed to decode as an object. JSON floats are not modelled.
- Repository.Init: `expanduser`, `resolve` and `mkdir` are not modelled; the directory is given already resolved and absolute. Reading or writing the index and the data files never fails.
- Text.Lower: `str.lower()` is modelled for ASCII letters only.
- The duplicate domain models under `tts-server/domain/models.py`, the HTTP and WebSocket routers, dependency wiring and settings are outside the core.

=== FILE: capture_hub.dfy ===
/**
  The pub-sub capture hub of `example_of_sd_recording.py`
  (`SoundDeviceAudioStreamAdapter` and its `_QueueReader`).

  Every public operation of the adapter runs under one lock, and the capture
  callback takes the same lock to number the frame and snapshot the table.
  The model treats each operation, and each callback invocation, as one
  atomic transition of an immutable `Hub` value. The hardware stream is
  reduced to the `running` flag (`self._stream is not None`), and opening it
  is an oracle outcome passed to `Start`.
 */
module CaptureHub {
  import opened Common

  /** The stream format fixed at construction (`AudioFormat` of the
      recorder package). */
  datatype StreamFormat = StreamFormat(sampleRate: int, channels: int, blocksize: int, dtype: string)

  /** One captured block: a copy of the samples, the hub's format and the
      hub-wide sequence number it was given. */
  datatype AudioFrame = AudioFrame(data: seq<int>, format: StreamFormat, sequence: nat)

  /** `_Subscriber`: the bounded `queue.Queue` is a FIFO sequence plus the
      `maxsize` it was created with. */
  datatype Subscriber = Subscriber(name: string, capacity: nat, queue: seq<AudioFrame>, closed: bool)

  /** The adapter's fields. `running` stands for `self._stream is not None`. */
  datatype Hub = Hub(
    format: StreamFormat,
    running: bool,
    nextId: nat,
    subscribers: map<nat, Subscriber>,
    frameSequence: nat)

  /* ---------------- invariant ---------------- */

  predicate Increasing(q: seq<AudioFrame>) {
    forall i, j :: 0 <= i < j < |q| ==> q[i].sequence < q[j].sequence
  }

  /** What holds of every subscriber in the table: it is open, its queue fits
      its capacity, its frames are in capture order, carry the hub's format
      and were numbered before the current counter. */
  predicate SubscriberOk(s: Subscriber, format: StreamFormat, counter: nat) {
    && s.capacity >= 1
    && |s.queue| <= s.capacity
    && !s.closed
    && Increasing(s.queue)
    && forall i :: 0 <= i < |s.queue| ==> s.queue[i].sequence < counter && s.queue[i].format == format
  }

  /** The hub invariant. Ids in the table were all handed out already, and
      while no stream exists no queue holds a frame (so that `start`
      resetting the counter cannot put old frames above it). */
  predicate Valid(h: Hub) {
    && h.nextId >= 1
    && (forall id :: id in h.subscribers ==> 1 <= id < h.nextId)
    && (forall id :: id in h.subscribers ==> SubscriberOk(h.subscribers[id], h.format, h.frameSequence))
    && (!h.running ==> forall id :: id in h.subscribers ==> h.subscribers[id].queue == [])
  }

  /* ---------------- operations ---------------- */

  /** `__init__`: no stream, no subscribers, ids start at 1. */
  function Init(format: StreamFormat): (h: Hub)
    ensures Valid(h)
    ensures !h.running && h.subscribers == map[] && h.nextId == 1 && h.frameSequence == 0
  {
    Hub(format, false, 1, map[], 0)
  }

  /** `is_running`: whether a stream object exists. A hub in that state
      holds no queued frame. */
  function IsRunning(h: Hub): (b: bool)
    ensures Valid(h) && !b ==> forall id :: id in h.subscribers ==> h.subscribers[id].queue == []
  {
    h.running
  }

  /** What happens when `start` asks the runtime for an input stream:
      `sounddevice.InputStream(...)` raises, or it is created and then
      `stream.start()` raises, or both succeed. */
  datatype StreamOpening = Opened | OpenFailed(error: Exception) | StartFailed(error: Exception)

  /** `start`. Device selection never fails the call and is not modelled.
      The counter is reset before the stream is created, so it is reset even
      when creation raises; a stream whose `start()` raised stays assigned. */
  function Start(h: Hub, opening: StreamOpening): (r: (Hub, Result<()>))
    ensures h.running ==> r == (h, Ok(()))
    ensures !h.running ==> r.0 == h.(running := !opening.OpenFailed?, frameSequence := 0)
    ensures !h.running ==> (r.1.Ok? <==> opening.Opened?)
    ensures !h.running && !opening.Opened? ==> r.1 == Raised(opening.error)
  {
    if h.running then (h, Ok(()))
    else
      var reset := h.(frameSequence := 0);
      match opening
      case OpenFailed(e) => (reset, Raised(e))
      case StartFailed(e) => (reset.(running := true), Raised(e))
      case Opened => (reset.(running := true), Ok(()))
  }

  /** `stop`: every subscriber is closed and drained and the table cleared;
      the stream is released (its own failures are only logged). The id
      counter and the frame counter are left alone. */
  function Stop(h: Hub): (r: Hub)
    ensures !r.running && r.subscribers == map[]
    ensures r.nextId == h.nextId && r.frameSequence == h.frameSequence && r.format == h.format
  {
    h.(running := false, subscribers := map[])
  }

  /** `is_running` along the life cycle: false for a new hub and after
      `stop`; after `start`, true exactly when a stream object was assigned,
      which includes a stream whose own `start()` raised. */
  lemma RunningLifeCycle(format: StreamFormat, h: Hub, opening: StreamOpening)
    ensures !IsRunning(Init(format))
    ensures !IsRunning(Stop(h))
    ensures IsRunning(Start(h, opening).0) <==> IsRunning(h) || !opening.OpenFailed?
  {
  }

  /** `max(1, int(max_frames))`. */
  function Capacity(maxFrames: int): (c: nat)
    ensures c >= 1 && c >= maxFrames
    ensures maxFrames >= 1 ==> c == maxFrames
    ensures maxFrames < 1 ==> c == 1
  {
    if maxFrames < 1 then 1 else maxFrames
  }

  /** `subscribe`: hands out the current id, advances the counter and
      registers an open subscriber with an empty queue. */
  function Subscribe(h: Hub, name: string, maxFrames: int): (r: (Hub, nat))
    ensures r.1 == h.nextId && r.0.nextId == h.nextId + 1
    ensures r.0.subscribers == h.subscribers[r.1 := Subscriber(name, Capacity(maxFrames), [], false)]
    ensures r.0.running == h.running && r.0.frameSequence == h.frameSequence && r.0.format == h.format
  {
    var id := h.nextId;
    (h.(nextId := id + 1, subscribers := h.subscribers[id := Subscriber(name, Capacity(maxFrames), [], false)]), id)
  }

  /** `_close_subscriber` (what `_QueueReader.close` calls): removes the
      entry, discarding its frames; an unknown id changes nothing. */
  function Close(h: Hub, id: nat): (r: Hub)
    ensures id !in r.subscribers
    ensures forall other :: other != id ==>
              (other in r.subscribers <==> other in h.subscribers)
              && (other in h.subscribers ==> r.subscribers[other] == h.subscribers[other])
    ensures r.running == h.running && r.nextId == h.nextId && r.frameSequence == h.frameSequence
    ensures r.format == h.format
    ensures id !in h.subscribers ==> r == h
  {
    if id !in h.subscribers then h else h.(subscribers := h.subscribers - {id})
  }

  /** `put_nowait` on one subscriber's queue, skipping closed subscribers.
      When the queue is full `queue.Full` is caught and the INCOMING frame is
      dropped; the frames already queued stay as they are. */
  function Deliver(s: Subscriber, frame: AudioFrame): (r: Subscriber)
    ensures r.name == s.name && r.capacity == s.capacity && r.closed == s.closed
    ensures !s.closed && |s.queue| < s.capacity ==> r.queue == s.queue + [frame]
    ensures s.closed || |s.queue| >= s.capacity ==> r.queue == s.queue
  {
    if s.closed then s
    else if |s.queue| < s.capacity then s.(queue := s.queue + [frame])
    else s
  }

  /** `_callback`: the frame takes the pre-increment counter as its sequence
      number and is offered to every subscriber of the snapshot. */
  function Capture(h: Hub, data: seq<int>): (r: Hub)
    ensures r.frameSequence == h.frameSequence + 1
    ensures r.subscribers.Keys == h.subscribers.Keys
    ensures forall id :: id in h.subscribers ==>
              r.subscribers[id] == Deliver(h.subscribers[id], AudioFrame(data, h.format, h.frameSequence))
    ensures r.running == h.running && r.nextId == h.nextId && r.format == h.format
  {
    var frame := AudioFrame(data, h.format, h.frameSequence);
    h.(frameSequence := h.frameSequence + 1,
       subscribers := map id | id in h.subscribers :: Deliver(h.subscribers[id], frame))
  }

  /** `_QueueReader.read(0)`: the non-blocking read. No frame for a missing
      or closed subscriber or an empty queue; otherwise the head of the FIFO
      is removed and returned. */
  function Read(h: Hub, id: nat): (r: (Hub, Option<AudioFrame>))
    ensures r.1.None? <==> (id !in h.subscribers || h.subscribers[id].closed || h.subscribers[id].queue == [])
    ensures r.1.None? ==> r.0 == h
    ensures r.1.Some? ==>
              && r.1.value == h.subscribers[id].queue[0]
              && r.0 == h.(subscribers := h.subscribers[id := h.subscribers[id].(queue := h.subscribers[id].queue[1..])])
  {
    if id !in h.subscribers then (h, None)
    else
      var s := h.subscribers[id];
      if s.closed || s.queue == [] then (h, None)
      else (h.(subscribers := h.subscribers[id := s.(queue := s.queue[1..])]), Some(s.queue[0]))
  }

  /* ---------------- each operation keeps the invariant ---------------- */

  lemma StartKeepsValid(h: Hub, opening: StreamOpening)
    requires Valid(h)
    ensures Valid(Start(h, opening).0)
  {
  }

  lemma SubscribeKeepsValid(h: Hub, name: string, maxFrames: int)
    requires Valid(h)
    ensures Valid(Subscribe(h, name, maxFrames).0)
    ensures Subscribe(h, name, maxFrames).1 !in h.subscribers
  {
  }

  lemma DeliverKeepsOk(s: Subscriber, frame: AudioFrame, format: StreamFormat, counter: nat)
    requires SubscriberOk(s, format, counter)
    requires frame.sequence == counter && frame.format == format
    ensures SubscriberOk(Deliver(s, frame), format, counter + 1)
  {
    var r := Deliver(s, frame);
    if |s.queue| < s.capacity {
      forall i, j | 0 <= i < j < |r.queue| ensures r.queue[i].sequence < r.queue[j].sequence {
        if j == |s.queue| {
          assert r.queue[i] == s.queue[i];
        }
      }
    }
  }

  /** A capture keeps the invariant provided a stream exists, which is the
      only time the runtime invokes the callback. */
  lemma CaptureKeepsValid(h: Hub, data: seq<int>)
    requires Valid(h) && h.running
    ensures Valid(Capture(h, data))
  {
    var frame := AudioFrame(data, h.format, h.frameSequence);
    forall id | id in h.subscribers
      ensures SubscriberOk(Capture(h, data).subscribers[id], h.format, h.frameSequence + 1)
    {
      DeliverKeepsOk(h.subscribers[id], frame, h.format, h.frameSequence);
    }
  }

  lemma ReadKeepsValid(h: Hub, id: nat)
    requires Valid(h)
    ensures Valid(Read(h, id).0)
  {
    var r := Read(h, id);
    if r.1.Some? {
      var s := h.subscribers[id];
      assert SubscriberOk(s, h.format, h.frameSequence);
      var s' := s.(queue := s.queue[1..]);
      assert forall i :: 0 <= i < |s'.queue| ==> s'.queue[i] == s.queue[i + 1];
      assert SubscriberOk(s', h.format, h.frameSequence);
    }
  }

  /* ---------------- traces ---------------- */

  /** The things that can happen to a hub. A capture is an invocation of the
      callback by the runtime. */
  datatype Event =
    | StartEvent(opening: StreamOpening)
    | StopEvent
    | SubscribeEvent(name: string, maxFrames: int)
    | CloseEvent(id: nat)
    | CaptureEvent(data: seq<int>)
    | ReadEvent(id: nat)

  /** One event. The runtime only calls back into a stream that exists, so
      a capture while stopped does not happen and leaves the hub as it is. */
  function Step(h: Hub, e: Event): Hub {
    match e
    case StartEvent(o) => Start(h, o).0
    case StopEvent => Stop(h)
    case SubscribeEvent(n, m) => Subscribe(h, n, m).0
    case CloseEvent(id) => Close(h, id)
    case CaptureEvent(d) => if h.running then Capture(h, d) else h
    case ReadEvent(id) => Read(h, id).0
  }

  function Run(h: Hub, events: seq<Event>): Hub
    decreases |events|
  {
    if events == [] then h else Run(Step(h, events[0]), events[1..])
  }

  /** The ids `subscribe` hands out along a run, in order. */
  function Issued(h: Hub, events: seq<Event>): seq<nat>
    decreases |events|
  {
    if events == [] then []
    else
      var rest := Issued(Step(h, events[0]), events[1..]);
      if events[0].SubscribeEvent? then [h.nextId] + rest else rest
  }

  lemma StepKeepsValid(h: Hub, e: Event)
    requires Valid(h)
    ensures Valid(Step(h, e))
  {
    match e
    case StartEvent(o) => StartKeepsValid(h, o);
    case StopEvent =>
    case SubscribeEvent(n, m) => SubscribeKeepsValid(h, n, m);
    case CloseEvent(id) =>
    case CaptureEvent(d) => if h.running { CaptureKeepsValid(h, d); }
    case ReadEvent(id) => ReadKeepsValid(h, id);
  }

  /** The invariant holds after any sequence of operations. */
  lemma {:induction false} RunKeepsValid(h: Hub, events: seq<Event>)
    requires Valid(h)
    ensures Valid(Run(h, events))
    decreases |events|
  {
    if events != [] {
      StepKeepsValid(h, events[0]);
      RunKeepsValid(Step(h, events[0]), events[1..]);
    }
  }

  lemma StepNextId(h: Hub, e: Event)
    ensures Step(h, e).nextId == h.nextId + (if e.SubscribeEvent? then 1 else 0)
  {
  }

  /** Ids are never reused: along any run the ids handed out strictly
      increase, each lies between the counter before and after the run, and
      none of them was in the table when the run began. */
  lemma {:induction false} IssuedIdsFresh(h: Hub, events: seq<Event>)
    requires Valid(h)
    ensures var ids := Issued(h, events);
            && (forall i, j :: 0 <= i < j < |ids| ==> ids[i] < ids[j])
            && (forall i :: 0 <= i < |ids| ==> h.nextId <= ids[i] < Run(h, events).nextId && ids[i] !in h.subscribers)
    ensures Run(h, events).nextId == h.nextId + |Issued(h, events)|
    decreases |events|
  {
    if events != [] {
      var h1 := Step(h, events[0]);
      StepKeepsValid(h, events[0]);
      StepNextId(h, events[0]);
      IssuedIdsFresh(h1, events[1..]);
    }
  }

  /** Once an id has been handed out and is no longer in the table (closed,
      or cleared by `stop`), no later operation brings it back. */
  lemma {:induction false} RemovedStaysRemoved(h: Hub, events: seq<Event>, id: nat)
    requires Valid(h)
    requires id < h.nextId && id !in h.subscribers
    ensures id !in Run(h, events).subscribers
    ensures Read(Run(h, events), id).1 == None
    decreases |events|
  {
    if events != [] {
      var h1 := Step(h, events[0]);
      StepKeepsValid(h, events[0]);
      StepNextId(h, events[0]);
      RemovedStaysRemoved(h1, events[1..], id);
    }
  }

  /** `stop` is idempotent. */
  lemma StopIdempotent(h: Hub)
    ensures Stop(Stop(h)) == Stop(h)
  {
  }

  /* ---------------- delivery of a burst of captures ---------------- */

  /** The callback invoked once per block in `blocks`. */
  function Captures(h: Hub, blocks: seq<seq<int>>): (r: Hub)
    ensures r.subscribers.Keys == h.subscribers.Keys
    ensures r.frameSequence == h.frameSequence + |blocks|
    ensures r.format == h.format
    decreases |blocks|
  {
    if blocks == [] then h else Captures(Capture(h, blocks[0]), blocks[1..])
  }

  /** The frames a burst of captures produces, numbered from the counter. */
  function Frames(h: Hub, blocks: seq<seq<int>>, k: nat): (fs: seq<AudioFrame>)
    requires k <= |blocks|
    ensures |fs| == k
    ensures forall i :: 0 <= i < k ==> fs[i] == AudioFrame(blocks[i], h.format, h.frameSequence + i)
  {
    seq(k, i requires 0 <= i < k => AudioFrame(blocks[i], h.format, h.frameSequence + i))
  }

  /** A burst of captures appends to an open subscriber's queue exactly the
      first frames of the burst that fit; once the queue is full every
      later frame of the burst is dropped and nothing queued is evicted. */
  lemma FramesCons(h: Hub, blocks: seq<seq<int>>, k: nat)
    requires 1 <= k <= |blocks|
    ensures Frames(h, blocks, k)
         == [AudioFrame(blocks[0], h.format, h.frameSequence)] + Frames(Capture(h, blocks[0]), blocks[1..], k - 1)
  {
  }

  /** One capture into a queue with room: the queue grows by the first frame
      of the burst, and the rest of the burst is what is still to come. */
  lemma CaptureWithRoom(h: Hub, blocks: seq<seq<int>>, id: nat, k: nat)
    requires id in h.subscribers && !h.subscribers[id].closed
    requires |h.subscribers[id].queue| < h.subscribers[id].capacity
    requires 1 <= k <= |blocks|
    ensures var h1 := Capture(h, blocks[0]);
            h.subscribers[id].queue + Frames(h, blocks, k)
              == h1.subscribers[id].queue + Frames(h1, blocks[1..], k - 1)
  {
    FramesCons(h, blocks, k);
  }

  lemma {:induction false} CapturesFillQueue(h: Hub, blocks: seq<seq<int>>, id: nat)
    requires id in h.subscribers && !h.subscribers[id].closed
    requires |h.subscribers[id].queue| <= h.subscribers[id].capacity
    ensures var s := h.subscribers[id];
            Captures(h, blocks).subscribers[id]
              == s.(queue := s.queue + Frames(h, blocks, Min(|blocks|, s.capacity - |s.queue|)))
    decreases |blocks|
  {
    if blocks != [] {
      var s := h.subscribers[id];
      var h1 := Capture(h, blocks[0]);
      var s1 := h1.subscribers[id];
      CapturesFillQueue(h1, blocks[1..], id);
      if |s.queue| < s.capacity {
        CaptureWithRoom(h, blocks, id, Min(|blocks|, s.capacity - |s.queue|));
      }
    }
  }

  /** With enough room, a subscriber that joins a freshly started hub sees
      the frames numbered 0, 1, ..., N-1 in order, one per captured block. */
  lemma FreshSubscriberSeesAllFrames(h: Hub, name: string, maxFrames: int, blocks: seq<seq<int>>)
    requires Valid(h) && !h.running
    requires |blocks| <= maxFrames
    ensures var (h1, _) := Start(h, Opened);
            var (h2, id) := Subscribe(h1, name, maxFrames);
            var q := Captures(h2, blocks).subscribers[id].queue;
            && |q| == |blocks|
            && forall i :: 0 <= i < |q| ==> q[i].sequence == i && q[i].data == blocks[i]
  {
    var (h1, _) := Start(h, Opened);
    var (h2, id) := Subscribe(h1, name, maxFrames);
    var s := h2.subscribers[id];
    assert s == Subscriber(name, Capacity(maxFrames), [], false);
    assert h2.frameSequence == 0;
    CapturesFillQueue(h2, blocks, id);
    assert Min(|blocks|, s.capacity - |s.queue|) == |blocks|;
  }

  /** With a capacity of K, a burst of M > K captures into an empty queue
      leaves exactly the FIRST K frames of the burst queued. */
  lemma OverflowKeepsOldest(h: Hub, blocks: seq<seq<int>>, id: nat)
    requires id in h.subscribers && !h.subscribers[id].closed
    requires h.subscribers[id].queue == []
    requires |blocks| > h.subscribers[id].capacity
    ensures var q := Captures(h, blocks).subscribers[id].queue;
            && |q| == h.subscribers[id].capacity
            && forall i :: 0 <= i < |q| ==> q[i].data == blocks[i] && q[i].sequence == h.frameSequence + i
  {
    CapturesFillQueue(h, blocks, id);
  }
}

=== FILE: common.dfy ===
/**
  Shared vocabulary of the model: optional values, the exceptions the
  Python code raises (as a value rather than as control flow), and bytes.
 */
module Common {

  /** Python's `X | None`. */
  datatype Option<+T> = None | Some(value: T) {
    predicate IsFailure() { None? }

    function PropagateFailure<U>(): Option<U>
      requires None?
    {
      None
    }

    function Extract(): T
      requires Some?
    {
      value
    }

    function GetOr(default: T): T {
      match this
      case Some(v) => v
      case None => default
    }
  }

  /** The Python exception classes the modelled code raises or lets through. */
  datatype ErrorKind =
    | FileNotFoundError
    | ValueError
    | IndexError
    | KeyError
    | ZeroDivisionError
    | AttributeError
    | TypeError
      /** `wave.Error`, raised by the WAV writer for a bad parameter. */
    | WaveError
      /** Anything raised by a collaborator the model treats as an oracle
          (the TTS model, the sound device runtime, an observer callback). */
    | ExternalError

  /** An exception in flight: its class and the text `str(e)` yields. */
  datatype Exception = Exception(kind: ErrorKind, message: string)

  /** The outcome of a Python call: a returned value or a raised exception. */
  datatype Result<+T> = Ok(value: T) | Raised(error: Exception) {
    predicate IsFailure() { Raised? }

    function PropagateFailure<U>(): Result<U>
      requires Raised?
    {
      Raised(error)
    }

    function Extract(): T
      requires Ok?
    {
      value
    }
  }

  /** A Python `bytes` element. */
  type uint8 = x: int | 0 <= x < 256

  type Bytes = seq<uint8>

  /** Python's `min` of two integers. */
  function Min(a: int, b: int): int {
    if a <= b then a else b
  }
}

=== FILE: coqui.dfy ===
/**
  The parts of `CoquiTTSAdapter` (`tts_server/adapters/tts/coqui.py`) that
  are decisions of the adapter rather than of the Coqui model: the lazy,
  one-time model load, how requests and voices are mapped onto a synthesis
  call and a response, the duration estimate, the 4096-byte streaming, and
  voice cloning's record construction.

  The Coqui model is an oracle. Loading it yields a `TtsModel` (or raises);
  synthesising with it yields the WAV bytes that `tts.tts` followed by
  `_numpy_to_wav_bytes` produce (or raises).
 */
module Coqui {
  import opened Common
  import opened PosixPath
  import opened Domain

  /** What the adapter inspects of a loaded model. `None` stands for an
      attribute the model object does not have. */
  datatype TtsModel = TtsModel(
    handle: nat,
    speakers: Option<seq<string>>,
    languages: Option<seq<string>>,
    outputSampleRate: Option<int>)

  /** The adapter: its configuration, the cached model (`self._tts`), and
      how many times a model has been constructed. */
  datatype Adapter = Adapter(modelName: string, gpu: bool, tts: Option<TtsModel>, loads: nat)

  /** `__init__`: nothing is loaded yet. */
  function Init(modelName: string, gpu: bool): (a: Adapter)
    ensures a.tts.None? && a.loads == 0
  {
    Adapter(modelName, gpu, None, 0)
  }

  /** A model is cached exactly when one has been constructed, and at most
      one ever is. */
  predicate Valid(a: Adapter) {
    a.loads <= 1 && (a.loads == 1 <==> a.tts.Some?)
  }

  /** `_get_tts`: construct the model on first use only. `load` is what
      `TTS(model_name=..., gpu=...)` would give now; a failed construction
      caches nothing, so a later call tries again. */
  function GetTts(a: Adapter, load: Result<TtsModel>): (r: (Adapter, Result<TtsModel>))
    ensures a.tts.Some? ==> r == (a, Ok(a.tts.value))
    ensures a.tts.None? && load.Ok? ==> r.1 == load && r.0 == a.(tts := Some(load.value), loads := a.loads + 1)
    ensures a.tts.None? && load.Raised? ==> r == (a, load)
    ensures Valid(a) ==> Valid(r.0)
    ensures r.1.Ok? ==> r.0.tts == Some(r.1.value)
  {
    if a.tts.Some? then (a, Ok(a.tts.value))
    else match load
      case Raised(e) => (a, Raised(e))
      case Ok(m) => (a.(tts := Some(m), loads := a.loads + 1), Ok(m))
  }

  /** A series of `_get_tts` calls, each with whatever construction would
      give at that moment. */
  function GetTtsMany(a: Adapter, loads: seq<Result<TtsModel>>): (r: (Adapter, seq<Result<TtsModel>>))
    ensures |r.1| == |loads|
    decreases |loads|
  {
    if loads == [] then (a, [])
    else
      var (a1, m) := GetTts(a, loads[0]);
      var (a2, ms) := GetTtsMany(a1, loads[1..]);
      (a2, [m] + ms)
  }

  /** Once a model is cached, every later `_get_tts` returns that same model
      and nothing is constructed again, whatever construction would give. */
  lemma {:induction false} LoadedOnce(a: Adapter, loads: seq<Result<TtsModel>>)
    requires Valid(a) && a.tts.Some?
    ensures GetTtsMany(a, loads).0 == a
    ensures forall i :: 0 <= i < |loads| ==> GetTtsMany(a, loads).1[i] == Ok(a.tts.value)
    decreases |loads|
  {
    if loads != [] {
      LoadedOnce(a, loads[1..]);
    }
  }

  /** `tts.synthesizer.output_sample_rate`, or 22050 for a model without a
      synthesizer. */
  function SampleRate(m: TtsModel): (r: int)
    ensures m.outputSampleRate.Some? ==> r == m.outputSampleRate.value
    ensures m.outputSampleRate.None? ==> r == 22050
  {
    m.outputSampleRate.GetOr(22050)
  }

  /** `(len(audio_bytes) - 44) // 2`: the bytes after a 44-byte WAV header,
      counted as 16-bit samples, rounded down (Python's `//` floors, which
      for the divisor 2 agrees with Dafny's `/`). Negative when the audio is
      shorter than a header. */
  function SampleCount(audio: Bytes): (n: int)
    ensures 2 * n <= |audio| - 44 < 2 * n + 2
    ensures |audio| >= 44 ==> n >= 0
  {
    (|audio| - 44) / 2
  }

  /** `_calculate_duration`: samples over sample rate; a zero rate is a
      ZeroDivisionError. */
  function CalculateDuration(audio: Bytes, sampleRate: int): (r: Result<real>)
    ensures r.Ok? <==> sampleRate != 0
    ensures r.Ok? ==> r.value * sampleRate as real == SampleCount(audio) as real
    ensures r.Raised? ==> r.error.kind == ZeroDivisionError
  {
    if sampleRate == 0 then Raised(Exception(ZeroDivisionError, "division by zero"))
    else Ok(SampleCount(audio) as real / sampleRate as real)
  }

  /** The arguments of one synthesis call on the model. */
  datatype EngineCall = EngineCall(text: string, language: string, speakerWav: Option<string>)

  /** Synthesis by the loaded model: WAV bytes, or an exception. */
  type Engine = (TtsModel, EngineCall) -> Result<Bytes>

  /** One `synthesize` call: the adapter afterwards, the engine call made
      (if the model could be loaded), and the response or exception. */
  datatype Synthesis = Synthesis(adapter: Adapter, call: Option<EngineCall>, response: Result<TTSResponse>)

  /** `wf.setframerate(sample_rate)` in `_numpy_to_wav_bytes`: the writer
      refuses a rate of zero or below. */
  function WriteFrameRate(sampleRate: int): (r: Result<()>)
    ensures r.Ok? <==> sampleRate > 0
    ensures r.Raised? ==> r.error.kind == WaveError
  {
    if sampleRate <= 0 then Raised(Exception(WaveError, "bad frame rate")) else Ok(())
  }

  /** `voice.file_path if voice else None`: the speaker reference. */
  function SpeakerWav(voice: Option<VoiceModel>): (r: Option<string>)
    ensures voice.None? ==> r.None?
    ensures voice.Some? ==> r == voice.value.filePath
  {
    if voice.Some? then voice.value.filePath else None
  }

  /** `synthesize`: the speaker reference is the voice's stored file path
      when a voice is given; the response is WAV at the model's rate, with
      the duration `_calculate_duration` derives from the bytes. It succeeds
      exactly when the model loads, the engine returns audio and the rate is
      positive. A failed load or engine call reaches the caller unchanged;
      a rate of zero or below makes the WAV writer's `setframerate` raise
      `wave.Error` before any duration is computed. */
  function Synthesize(a: Adapter, request: TTSRequest, voice: Option<VoiceModel>,
                      load: Result<TtsModel>, engine: Engine): (s: Synthesis)
    ensures s.adapter == GetTts(a, load).0
    ensures s.call.Some? <==> GetTts(a, load).1.Ok?
    ensures s.call.Some? ==> s.call.value == EngineCall(request.text, request.language, SpeakerWav(voice))
    ensures GetTts(a, load).1.Raised? ==> s.response == GetTts(a, load).1.PropagateFailure()
    ensures GetTts(a, load).1.Ok? ==>
              var m := GetTts(a, load).1.value;
              var audio := engine(m, EngineCall(request.text, request.language, SpeakerWav(voice)));
              && (audio.Raised? ==> s.response == audio.PropagateFailure())
              && (audio.Ok? && SampleRate(m) > 0 ==> s.response.Ok?)
              && (audio.Ok? && SampleRate(m) <= 0 ==> s.response.Raised? && s.response.error.kind == WaveError)
    ensures s.response.Ok? ==>
              && s.call.Some?
              && var m := GetTts(a, load).1.value;
                 && engine(m, s.call.value) == Ok(s.response.value.audioData)
                 && s.response.value.audioFormat == WAV
                 && s.response.value.sampleRate == SampleRate(m)
                 && SampleRate(m) > 0
                 && CalculateDuration(s.response.value.audioData, SampleRate(m)) == Ok(s.response.value.durationSeconds)
  {
    var (a1, loaded) := GetTts(a, load);
    match loaded
    case Raised(e) => Synthesis(a1, None, Raised(e))
    case Ok(m) =>
      var call := EngineCall(request.text, request.language, SpeakerWav(voice));
      var response :=
        var audio :- engine(m, call);
        var _ :- WriteFrameRate(SampleRate(m));
        // With a positive rate `_calculate_duration` cannot raise.
        var duration := CalculateDuration(audio, SampleRate(m)).value;
        Ok(TTSResponse(audio, WAV, SampleRate(m), duration));
      Synthesis(a1, Some(call), response)
  }

  /** Once a model is cached, synthesis does not depend on what loading
      would give, and the adapter is left as it was. */
  lemma CachedModelIgnoresLoad(a: Adapter, request: TTSRequest, voice: Option<VoiceModel>,
                               load1: Result<TtsModel>, load2: Result<TtsModel>, engine: Engine)
    requires Valid(a) && a.tts.Some?
    ensures Synthesize(a, request, voice, load1, engine) == Synthesize(a, request, voice, load2, engine)
    ensures Synthesize(a, request, voice, load1, engine).adapter == a
  {
  }

  /* ---------------- streaming ---------------- */

  const ChunkSize: nat := 4096

  function Concat(chunks: seq<Bytes>): Bytes
    decreases |chunks|
  {
    if chunks == [] then [] else Concat(chunks[..|chunks| - 1]) + chunks[|chunks| - 1]
  }

  /** The chunks `synthesize_stream` yields for the synthesised audio:
      `audio[i:i + 4096]` for `i` in `range(0, len(audio), 4096)`. They
      concatenate back to the audio; each is non-empty and at most 4096
      bytes, all but the last exactly 4096; there are ceil(len/4096) of
      them, so empty audio yields none. */
  method StreamChunks(audio: Bytes) returns (chunks: seq<Bytes>)
    ensures Concat(chunks) == audio
    ensures |chunks| == (|audio| + ChunkSize - 1) / ChunkSize
    ensures forall k :: 0 <= k < |chunks| ==> 0 < |chunks[k]| <= ChunkSize
    ensures forall k :: 0 <= k < |chunks| - 1 ==> |chunks[k]| == ChunkSize
  {
    chunks := [];
    var i := 0;
    while i < |audio|
      invariant i == ChunkSize * |chunks|
      invariant chunks != [] ==> i - ChunkSize < |audio|
      invariant Concat(chunks) == audio[..Min(i, |audio|)]
      invariant forall k :: 0 <= k < |chunks| ==> chunks[k] == audio[ChunkSize * k..Min(ChunkSize * (k + 1), |audio|)]
    {
      var chunk := audio[i..Min(i + ChunkSize, |audio|)];
      assert (chunks + [chunk])[..|chunks|] == chunks;
      chunks := chunks + [chunk];
      i := i + ChunkSize;
    }
  }

  /** `synthesize_stream`: the chunks of the synthesised audio, or the
      exception synthesis raised before any chunk was produced. */
  method SynthesizeStream(a: Adapter, request: TTSRequest, voice: Option<VoiceModel>,
                          load: Result<TtsModel>, engine: Engine)
    returns (a': Adapter, chunks: Result<seq<Bytes>>)
    ensures a' == Synthesize(a, request, voice, load, engine).adapter
    ensures chunks.Ok? <==> Synthesize(a, request, voice, load, engine).response.Ok?
    ensures chunks.Raised? ==> chunks == Synthesize(a, request, voice, load, engine).response.PropagateFailure()
    ensures chunks.Ok? ==> Concat(chunks.value) == Synthesize(a, request, voice, load, engine).response.value.audioData
    ensures chunks.Ok? ==>
              |chunks.value| == (|Synthesize(a, request, voice, load, engine).response.value.audioData| + ChunkSize - 1) / ChunkSize
    ensures chunks.Ok? ==> forall k :: 0 <= k < |chunks.value| ==> 0 < |chunks.value[k]| <= ChunkSize
    ensures chunks.Ok? ==> forall k :: 0 <= k < |chunks.value| - 1 ==> |chunks.value[k]| == ChunkSize
  {
    var s := Synthesize(a, request, voice, load, engine);
    a' := s.adapter;
    if s.response.Raised? {
      chunks := s.response.PropagateFailure();
    } else {
      var cs := StreamChunks(s.response.value.audioData);
      chunks := Ok(cs);
    }
  }

  /* ---------------- catalogue ---------------- */

  /** A non-empty list from the model, or the fallback. */
  function ListOr(found: Option<seq<string>>, fallback: string): (r: seq<string>)
    ensures found.Some? && found.value != [] ==> r == found.value
    ensures found.None? || found.value == [] ==> r == [fallback]
    ensures r != []
  {
    if found.Some? && found.value != [] then found.value else [fallback]
  }

  /** `get_available_voices`: the model's speakers when it has any, else
      `["default"]`. Loads the model if needed. */
  function GetAvailableVoices(a: Adapter, load: Result<TtsModel>): (r: (Adapter, Result<seq<string>>))
    ensures r.0 == GetTts(a, load).0
    ensures r.1.Ok? <==> GetTts(a, load).1.Ok?
    ensures r.1.Ok? ==> r.1.value == ListOr(GetTts(a, load).1.value.speakers, "default")
    ensures GetTts(a, load).1.Raised? ==> r.1 == GetTts(a, load).1.PropagateFailure()
  {
    var (a1, m) := GetTts(a, load);
    match m
    case Raised(e) => (a1, Raised(e))
    case Ok(model) => (a1, Ok(ListOr(model.speakers, "default")))
  }

  /** `get_supported_languages`: the model's languages when it has any,
      else `["en"]`. Loads the model if needed. */
  function GetSupportedLanguages(a: Adapter, load: Result<TtsModel>): (r: (Adapter, Result<seq<string>>))
    ensures r.0 == GetTts(a, load).0
    ensures r.1.Ok? <==> GetTts(a, load).1.Ok?
    ensures r.1.Ok? ==> r.1.value == ListOr(GetTts(a, load).1.value.languages, "en")
    ensures GetTts(a, load).1.Raised? ==> r.1 == GetTts(a, load).1.PropagateFailure()
  {
    var (a1, m) := GetTts(a, load);
    match m
    case Raised(e) => (a1, Raised(e))
    case Ok(model) => (a1, Ok(ListOr(model.languages, "en")))
  }

  /* ---------------- cloning ---------------- */

  /** What `clone_voice` leaves behind: the temporary file it created (its
      path and contents) and the voice record or the exception raised. */
  datatype Cloned = Cloned(tempPath: string, tempContents: Bytes, voice: Result<VoiceModel>)

  /** `clone_voice`. `newId` is the fresh `uuid4()`, `tempPath` the name
      `tempfile.mktemp(suffix=".wav")` picked, `now` the clock at
      construction. The file is created before the first sample is read, so
      a request without samples is an IndexError that leaves the file behind
      empty. */
  function CloneVoice(request: CloneRequest, newId: Uuid, tempPath: string, now: Timestamp): (r: Cloned)
    requires Suffix(tempPath) == ".wav"
    ensures r.tempPath == tempPath
    ensures r.voice.Ok? <==> |request.audioSamples| > 0
    ensures r.voice.Raised? ==> r.voice.error.kind == IndexError && r.tempContents == []
    ensures r.voice.Ok? ==>
              && r.voice.value.id == newId
              && r.voice.value.name == request.name
              && r.voice.value.description == request.description
              && r.voice.value.language == request.language
              && r.voice.value.createdAt == now
              && r.voice.value.filePath == Some(tempPath)
              && Suffix(r.voice.value.filePath.value) == ".wav"
              && r.voice.value.metadata == map["num_samples" := JInt(|request.audioSamples|)]
              && r.tempContents == request.audioSamples[0]
  {
    if |request.audioSamples| == 0 then Cloned(tempPath, [], Raised(Exception(IndexError, "list index out of range")))
    else
      Cloned(tempPath, request.audioSamples[0],
        Ok(VoiceModel(newId, request.name, request.description, request.language, now, Some(tempPath),
                      map["num_samples" := JInt(|request.audioSamples|)])))
  }
}

=== FILE: domain.dfy ===
/**
  The records of `tts_server/domain/models.py`, plus the two standard-library
  values they hold that need a textual form in the voice repository: a UUID
  and a naive `datetime`.
 */
module Domain {
  import opened Common
  import opened Text

  /* ---------------- UUID ---------------- */

  predicate IsLowerHex(c: char) {
    ('0' <= c <= '9') || ('a' <= c <= 'f')
  }

  /** The text `str(uuid)` produces: 32 lower-case hex digits in groups of
      8-4-4-4-12 separated by hyphens. */
  predicate IsCanonicalUuid(s: string) {
    && |s| == 36
    && forall i :: 0 <= i < |s| ==>
         if i == 8 || i == 13 || i == 18 || i == 23 then s[i] == '-' else IsLowerHex(s[i])
  }

  /** A UUID, represented by its canonical text. */
  type Uuid = s: string | IsCanonicalUuid(s) witness "00000000-0000-0000-0000-000000000000"

  /** `UUID(s)`, restricted to the canonical form that `str` produces. */
  function ParseUuid(s: string): (r: Result<Uuid>)
    ensures r.Ok? <==> IsCanonicalUuid(s)
    ensures r.Ok? ==> r.value == s
    ensures r.Raised? ==> r.error.kind == ValueError
  {
    if IsCanonicalUuid(s) then Ok(s)
    else Raised(Exception(ValueError, "badly formed hexadecimal UUID string"))
  }

  /* ---------------- naive datetime ---------------- */

  function DaysInMonth(year: int, month: int): int {
    if month == 2 then
      (if year % 4 == 0 && (year % 100 != 0 || year % 400 == 0) then 29 else 28)
    else if month == 4 || month == 6 || month == 9 || month == 11 then 30
    else 31
  }

  /** A naive `datetime` value, field by field. */
  datatype DateTime = DateTime(year: int, month: int, day: int,
                               hour: int, minute: int, second: int, microsecond: int)
  {
    /** The ranges `datetime`'s constructor enforces. */
    predicate Valid() {
      && 1 <= year <= 9999
      && 1 <= month <= 12
      && 1 <= day <= DaysInMonth(year, month)
      && 0 <= hour < 24
      && 0 <= minute < 60
      && 0 <= second < 60
      && 0 <= microsecond < 1000000
    }
  }

  type Timestamp = t: DateTime | t.Valid() witness DateTime(1, 1, 1, 0, 0, 0, 0)

  /** `t.isoformat()` for a naive datetime: `YYYY-MM-DDTHH:MM:SS`, followed by
      `.ffffff` only when the microsecond field is non-zero. */
  function IsoFormat(t: Timestamp): (r: string)
    ensures |r| == (if t.microsecond == 0 then 19 else 26)
  {
    DateText(t) + "T" + TimeText(t) + FractionText(t)
  }

  function DateText(t: Timestamp): (r: string)
    ensures |r| == 10
  {
    Digits(t.year, 4) + "-" + Digits(t.month, 2) + "-" + Digits(t.day, 2)
  }

  function TimeText(t: Timestamp): (r: string)
    ensures |r| == 8
  {
    Digits(t.hour, 2) + ":" + Digits(t.minute, 2) + ":" + Digits(t.second, 2)
  }

  function FractionText(t: Timestamp): (r: string)
    ensures |r| == (if t.microsecond == 0 then 0 else 7)
  {
    if t.microsecond != 0 then "." + Digits(t.microsecond, 6) else ""
  }

  /** `YYYY-MM-DD` read as (year, month, day). */
  function ParseDate(s: string): Option<(nat, nat, nat)>
    requires |s| == 10
  {
    if s[4] != '-' || s[7] != '-' then None
    else
      var y :- ParseDigits(s[0..4]);
      var m :- ParseDigits(s[5..7]);
      var d :- ParseDigits(s[8..10]);
      Some((y, m, d))
  }

  /** `HH:MM:SS` read as (hour, minute, second). */
  function ParseTime(s: string): Option<(nat, nat, nat)>
    requires |s| == 8
  {
    if s[2] != ':' || s[5] != ':' then None
    else
      var h :- ParseDigits(s[0..2]);
      var m :- ParseDigits(s[3..5]);
      var sec :- ParseDigits(s[6..8]);
      Some((h, m, sec))
  }

  /** Nothing, or `.ffffff`, read as microseconds. */
  function ParseFraction(s: string): Option<nat>
  {
    if s == [] then Some(0)
    else if |s| == 7 && s[0] == '.' then ParseDigits(s[1..])
    else None
  }

  /** `datetime.fromisoformat(s)` for the two shapes `isoformat` emits
      for a naive datetime; anything else is a ValueError. */
  function FromIsoFormat(s: string): (r: Result<Timestamp>)
    ensures r.Ok? ==> |s| == 19 || |s| == 26
    ensures r.Ok? ==> s[4] == '-' && s[7] == '-' && s[10] == 'T' && s[13] == ':' && s[16] == ':'
    ensures r.Raised? ==> r.error.kind == ValueError
  {
    var bad := Raised(Exception(ValueError, "Invalid isoformat string: " + s));
    if |s| < 19 || s[10] != 'T' then bad
    else
      match (ParseDate(s[..10]), ParseTime(s[11..19]), ParseFraction(s[19..]))
      case (Some((y, mo, d)), Some((h, mi, sec)), Some(us)) =>
        var t := DateTime(y, mo, d, h, mi, sec, us);
        if t.Valid() then Ok(t) else bad
      case _ => bad
  }

  lemma ParseDateText(t: Timestamp)
    ensures ParseDate(DateText(t)) == Some((t.year as nat, t.month as nat, t.day as nat))
  {
    var s := DateText(t);
    ParseDigitsOfDigits(t.year, 4);
    ParseDigitsOfDigits(t.month, 2);
    ParseDigitsOfDigits(t.day, 2);
    assert s[0..4] == Digits(t.year, 4);
    assert s[5..7] == Digits(t.month, 2);
    assert s[8..10] == Digits(t.day, 2);
  }

  lemma ParseTimeText(t: Timestamp)
    ensures ParseTime(TimeText(t)) == Some((t.hour as nat, t.minute as nat, t.second as nat))
  {
    var s := TimeText(t);
    ParseDigitsOfDigits(t.hour, 2);
    ParseDigitsOfDigits(t.minute, 2);
    ParseDigitsOfDigits(t.second, 2);
    assert s[0..2] == Digits(t.hour, 2);
    assert s[3..5] == Digits(t.minute, 2);
    assert s[6..8] == Digits(t.second, 2);
  }

  lemma ParseFractionText(t: Timestamp)
    ensures ParseFraction(FractionText(t)) == Some(t.microsecond as nat)
  {
    if t.microsecond != 0 {
      ParseDigitsOfDigits(t.microsecond, 6);
      assert FractionText(t)[1..] == Digits(t.microsecond, 6);
    }
  }

  /** Every timestamp survives `isoformat` followed by `fromisoformat`. */
  lemma IsoFormatRoundTrip(t: Timestamp)
    ensures FromIsoFormat(IsoFormat(t)) == Ok(t)
  {
    var s := IsoFormat(t);
    assert s[..10] == DateText(t);
    assert s[11..19] == TimeText(t);
    assert s[19..] == FractionText(t);
    ParseDateText(t);
    ParseTimeText(t);
    ParseFractionText(t);
  }

  /* ---------------- JSON values ---------------- */

  /** A JSON value as `json.load` returns it (floats are not modelled). */
  datatype Json =
    | JNull
    | JBool(b: bool)
    | JInt(i: int)
    | JStr(s: string)
    | JArray(items: seq<Json>)
    | JObject(fields: map<string, Json>)

  /* ---------------- models.py records ---------------- */

  datatype AudioFormat = WAV | MP3 | OGG

  datatype TTSRequest = TTSRequest(
    text: string,
    voiceId: Option<Uuid>,
    language: string,
    audioFormat: AudioFormat,
    speed: real)

  datatype TTSResponse = TTSResponse(
    audioData: Bytes,
    audioFormat: AudioFormat,
    sampleRate: int,
    durationSeconds: real)

  datatype VoiceModel = VoiceModel(
    id: Uuid,
    name: string,
    description: string,
    language: string,
    createdAt: Timestamp,
    filePath: Option<string>,
    metadata: map<string, Json>)

  datatype CloneRequest = CloneRequest(
    name: string,
    audioSamples: seq<Bytes>,
    description: string,
    language: string)

  datatype PlaybackRequest = PlaybackRequest(
    audioData: Bytes,
    sampleRate: int,
    channels: int)

  datatype PlaybackStatus = PlaybackStatus(
    isPlaying: bool,
    durationSeconds: Option<real>)
}

=== FILE: playback.dfy ===
/**
  The decisions of `SoundDevicePlaybackAdapter`
  (`tts_server/adapters/audio/sounddevice.py`): which output device to use,
  how a WAV path is validated and its frames decoded, how raw 16-bit PCM is
  decoded and shaped, and the life cycle of the `is_playing` flag.

  The sound device runtime is an oracle: the device list `query_devices`
  returns (or its failure), and whether `sd.play` + `sd.wait` (or `sd.stop`)
  return or raise. The `wave` module is an oracle too: it yields the header
  fields and the raw frame bytes of a file, or raises.
 */
module Playback {
  import opened Common
  import opened Text
  import opened PosixPath
  import opened Domain

  /* ---------------- output device selection ---------------- */

  /** One entry of `sd.query_devices()`: its `"name"` key, when present. */
  datatype DeviceInfo = DeviceInfo(name: Option<string>)

  /** `str(d.get("name", ""))`. */
  function DeviceName(d: DeviceInfo): string {
    d.name.GetOr("")
  }

  /** A PulseAudio or PipeWire device, recognised by its lower-cased name. */
  predicate IsSoundServer(d: DeviceInfo) {
    var n := Lower(DeviceName(d));
    Contains(n, "pulse") || Contains(n, "pipewire")
  }

  /** `_resolve_output_device`. `configured` is `settings.device_index`;
      `devices` is what `sd.query_devices()` returned, `None` when it raised.
      A configured index wins without any query; otherwise the first sound
      server in the list; otherwise `None` (the system default). */
  method ResolveOutputDevice(configured: Option<int>, devices: Option<seq<DeviceInfo>>) returns (r: Option<int>)
    ensures configured.Some? ==> r == configured
    ensures configured.None? && devices.None? ==> r == None
    ensures configured.None? && devices.Some? ==>
              (r.None? <==> forall i :: 0 <= i < |devices.value| ==> !IsSoundServer(devices.value[i]))
    ensures configured.None? && r.Some? ==>
              && devices.Some?
              && 0 <= r.value < |devices.value|
              && IsSoundServer(devices.value[r.value])
              && forall j :: 0 <= j < r.value ==> !IsSoundServer(devices.value[j])
  {
    if configured.Some? {
      return configured;
    }
    if devices.None? {
      return None;
    }
    var ds := devices.value;
    var i := 0;
    while i < |ds|
      invariant 0 <= i <= |ds|
      invariant forall j :: 0 <= j < i ==> !IsSoundServer(ds[j])
    {
      if IsSoundServer(ds[i]) {
        return Some(i);
      }
      i := i + 1;
    }
    return None;
  }

  /* ---------------- 16-bit PCM ---------------- */

  /** The little-endian signed 16-bit sample at index `i`. */
  function Int16At(b: Bytes, i: nat): (v: int)
    requires 2 * i + 1 < |b|
    ensures -32768 <= v <= 32767
  {
    var u := b[2 * i] as int + 256 * (b[2 * i + 1] as int);
    if u >= 32768 then u - 65536 else u
  }

  /** `np.frombuffer(b, dtype=np.int16)`: a ValueError unless the buffer is a
      whole number of samples. */
  function FromBufferInt16(b: Bytes): (r: Result<seq<int>>)
    ensures r.Ok? <==> |b| % 2 == 0
    ensures r.Raised? ==> r.error.kind == ValueError
    ensures r.Ok? ==> |r.value| == |b| / 2
    ensures r.Ok? ==> forall i :: 0 <= i < |r.value| ==> r.value[i] == Int16At(b, i)
  {
    if |b| % 2 != 0 then Raised(Exception(ValueError, "buffer size must be a multiple of element size"))
    else Ok(seq(|b| / 2, i requires 0 <= i < |b| / 2 => Int16At(b, i)))
  }

  predicate InInt16Range(s: seq<int>) {
    forall i :: 0 <= i < |s| ==> -32768 <= s[i] <= 32767
  }

  /** Two's-complement little-endian encoding of 16-bit samples, the layout
      the decoder reads. */
  function EncodeInt16(s: seq<int>): (b: Bytes)
    requires InInt16Range(s)
    ensures |b| == 2 * |s|
    decreases |s|
  {
    if s == [] then []
    else
      var u := if s[0] < 0 then s[0] + 65536 else s[0];
      [u % 256, u / 256] + EncodeInt16(s[1..])
  }

  lemma {:induction false} EncodeInt16At(s: seq<int>, i: nat)
    requires InInt16Range(s)
    requires i < |s|
    ensures Int16At(EncodeInt16(s), i) == s[i]
    decreases |s|
  {
    if i > 0 {
      var b := EncodeInt16(s);
      assert b[2..] == EncodeInt16(s[1..]);
      assert b[2 * i] == EncodeInt16(s[1..])[2 * (i - 1)];
      assert b[2 * i + 1] == EncodeInt16(s[1..])[2 * (i - 1) + 1];
      EncodeInt16At(s[1..], i - 1);
    }
  }

  /** Decoding what was encoded gives back the samples. */
  lemma DecodeEncodeInt16(s: seq<int>)
    requires InInt16Range(s)
    ensures FromBufferInt16(EncodeInt16(s)) == Ok(s)
  {
    var r := FromBufferInt16(EncodeInt16(s));
    forall i | 0 <= i < |s| ensures r.value[i] == s[i] {
      EncodeInt16At(s, i);
    }
    assert r.value == s;
  }

  /** Encoding what was decoded gives back the bytes. */
  lemma {:induction false} EncodeDecodeInt16(b: Bytes)
    requires |b| % 2 == 0
    ensures InInt16Range(FromBufferInt16(b).value)
    ensures EncodeInt16(FromBufferInt16(b).value) == b
    decreases |b|
  {
    var s := FromBufferInt16(b).value;
    if b != [] {
      var t := FromBufferInt16(b[2..]).value;
      assert s[1..] == t by {
        forall i | 0 <= i < |t| ensures s[1..][i] == t[i] {
          assert b[2..][2 * i] == b[2 * (i + 1)];
          assert b[2..][2 * i + 1] == b[2 * (i + 1) + 1];
        }
      }
      EncodeDecodeInt16(b[2..]);
      assert b == [b[0], b[1]] + b[2..];
    }
  }

  /** `x / 32768.0`: a 16-bit sample mapped into [-1, 1). Exact in float32. */
  function Normalise16(v: int): (r: real)
    requires -32768 <= v <= 32767
    ensures -1.0 <= r < 1.0
  {
    v as real / 32768.0
  }

  /* ---------------- array shapes ---------------- */

  /** A numpy array as the playback call receives it: one-dimensional, or
      two-dimensional with one row per frame and one column per channel. */
  datatype AudioArray = Flat(values: seq<real>) | Rows(rows: seq<seq<real>>)

  /** `len(array)`: samples of a flat array, rows of a shaped one. */
  function Length(a: AudioArray): nat {
    match a
    case Flat(v) => |v|
    case Rows(rs) => |rs|
  }

  function Flatten(rows: seq<seq<real>>): seq<real>
    decreases |rows|
  {
    if rows == [] then [] else rows[0] + Flatten(rows[1..])
  }

  /** The samples of an array in memory order. */
  function Samples(a: AudioArray): seq<real> {
    match a
    case Flat(v) => v
    case Rows(rs) => Flatten(rs)
  }

  lemma MulAtLeast(a: int, c: int)
    requires a >= 1 && c > 0
    ensures a * c >= c
  {
  }

  /** Euclidean division is unique. */
  lemma DivModUnique(x: int, c: int, q: int, r: int)
    requires c > 0 && 0 <= r < c && x == q * c + r
    ensures x / c == q && x % c == r
  {
    var q', r' := x / c, x % c;
    assert x == q' * c + r';
    if q' > q {
      MulAtLeast(q' - q, c);
      assert false;
    } else if q' < q {
      MulAtLeast(q - q', c);
      assert false;
    }
  }

  lemma DivSub(n: nat, c: nat)
    requires c > 0 && n % c == 0 && n > 0
    ensures n >= c && (n - c) % c == 0 && (n - c) / c == n / c - 1
  {
    var q := n / c;
    assert n == q * c;
    assert q >= 1;
    assert n - c == (q - 1) * c;
    DivModUnique(n - c, c, q - 1, 0);
  }

  /** Consecutive runs of `c` samples. */
  function Chunk(v: seq<real>, c: nat): (rows: seq<seq<real>>)
    requires c > 0 && |v| % c == 0
    ensures |rows| == |v| / c
    ensures forall i :: 0 <= i < |rows| ==> |rows[i]| == c
    ensures Flatten(rows) == v
    decreases |v|
  {
    if v == [] then []
    else
      DivSub(|v|, c);
      var rows := [v[..c]] + Chunk(v[c..], c);
      assert rows[1..] == Chunk(v[c..], c);
      assert v == v[..c] + v[c..];
      rows
  }

  /** `reshape(-1, channels)` for `channels > 1`: a ValueError unless the
      sample count divides evenly; otherwise rows of `channels` samples that
      read back, in order, as the original samples. */
  function Reshape(v: seq<real>, channels: nat): (r: Result<AudioArray>)
    requires channels > 1
    ensures r.Ok? <==> |v| % channels == 0
    ensures r.Raised? ==> r.error.kind == ValueError
    ensures r.Ok? ==> r.value.Rows? && |r.value.rows| == |v| / channels
    ensures r.Ok? ==> forall i :: 0 <= i < |r.value.rows| ==> |r.value.rows[i]| == channels
    ensures r.Ok? ==> Samples(r.value) == v
  {
    if |v| % channels != 0 then Raised(Exception(ValueError, "cannot reshape array"))
    else Ok(Rows(Chunk(v, channels)))
  }

  /* ---------------- PlaybackRequest decoding ---------------- */

  /** `_parse_audio_data`: the bytes as 16-bit PCM, shaped into rows of
      `channels` when there is more than one channel, each sample divided by
      32768. A ValueError when the bytes are not a whole number of samples
      or the samples not a whole number of frames. */
  function ParseAudioData(request: PlaybackRequest): (r: Result<AudioArray>)
    ensures r.Ok? <==> |request.audioData| % 2 == 0
                       && (request.channels <= 1 || (|request.audioData| / 2) % request.channels == 0)
    ensures r.Raised? ==> r.error.kind == ValueError
    ensures r.Ok? ==> |Samples(r.value)| == |request.audioData| / 2
    ensures r.Ok? ==> forall i :: 0 <= i < |Samples(r.value)| ==>
              && Samples(r.value)[i] == Int16At(request.audioData, i) as real / 32768.0
              && -1.0 <= Samples(r.value)[i] < 1.0
    ensures r.Ok? && request.channels <= 1 ==> r.value.Flat?
    ensures r.Ok? && request.channels > 1 ==>
              && r.value.Rows?
              && |r.value.rows| == |request.audioData| / 2 / request.channels
              && forall i :: 0 <= i < |r.value.rows| ==> |r.value.rows[i]| == request.channels
  {
    var samples :- FromBufferInt16(request.audioData);
    var normalised := seq(|samples|, i requires 0 <= i < |samples| => Normalise16(samples[i]));
    if request.channels > 1 then Reshape(normalised, request.channels) else Ok(Flat(normalised))
  }

  /* ---------------- WAV files ---------------- */

  /** What `wave.open(...)` reports for a file. */
  datatype WavContents = WavContents(sampleRate: int, channels: int, sampleWidth: int, frames: Bytes)

  /** The little-endian signed 32-bit sample at index `i`. */
  function Int32At(b: Bytes, i: nat): (v: int)
    requires 4 * i + 3 < |b|
    ensures -2147483648 <= v < 2147483648
  {
    var u := b[4 * i] as int + 256 * (b[4 * i + 1] as int) + 65536 * (b[4 * i + 2] as int)
             + 16777216 * (b[4 * i + 3] as int);
    if u >= 2147483648 then u - 4294967296 else u
  }

  /** `np.frombuffer(b, dtype=np.int32)`. */
  function FromBufferInt32(b: Bytes): (r: Result<seq<int>>)
    ensures r.Ok? <==> |b| % 4 == 0
    ensures r.Raised? ==> r.error.kind == ValueError
    ensures r.Ok? ==> |r.value| == |b| / 4
    ensures r.Ok? ==> forall i :: 0 <= i < |r.value| ==> r.value[i] == Int32At(b, i)
  {
    if |b| % 4 != 0 then Raised(Exception(ValueError, "buffer size must be a multiple of element size"))
    else Ok(seq(|b| / 4, i requires 0 <= i < |b| / 4 => Int32At(b, i)))
  }

  /** `path.suffix.lower() == ".wav"`. */
  predicate HasWavSuffix(path: string) {
    Lower(Suffix(path)) == ".wav"
  }

  /** A WAV file `_load_wav_file` can decode: 16- or 32-bit samples, a whole
      number of them, and a whole number of frames when there is more than
      one channel. */
  predicate Decodable(w: WavContents) {
    && (w.sampleWidth == 2 || w.sampleWidth == 4)
    && |w.frames| % w.sampleWidth == 0
    && (w.channels <= 1 || (|w.frames| / w.sampleWidth) % w.channels == 0)
  }

  /** The frame bytes as samples scaled into [-1, 1): 16-bit samples divided
      by 32768, 32-bit ones by 2147483648; a ValueError for any other width
      or a partial sample. */
  function DecodeFrames(w: WavContents): (r: Result<seq<real>>)
    ensures r.Ok? <==> (w.sampleWidth == 2 || w.sampleWidth == 4) && |w.frames| % w.sampleWidth == 0
    ensures r.Raised? ==> r.error.kind == ValueError
    ensures r.Ok? ==> |r.value| == |w.frames| / w.sampleWidth
    ensures r.Ok? && w.sampleWidth == 2 ==>
              forall i :: 0 <= i < |r.value| ==> r.value[i] == Int16At(w.frames, i) as real / 32768.0
    ensures r.Ok? && w.sampleWidth == 4 ==>
              forall i :: 0 <= i < |r.value| ==> r.value[i] == Int32At(w.frames, i) as real / 2147483648.0
  {
    if w.sampleWidth == 2 then
      var s :- FromBufferInt16(w.frames);
      Ok(seq(|s|, i requires 0 <= i < |s| => s[i] as real / 32768.0))
    else if w.sampleWidth == 4 then
      var s :- FromBufferInt32(w.frames);
      Ok(seq(|s|, i requires 0 <= i < |s| => s[i] as real / 2147483648.0))
    else
      Raised(Exception(ValueError, "Unsupported sample width: " + IntToString(w.sampleWidth) + " bytes"))
  }

  /** `_load_wav_file`. `pathExists` is `Path.exists`, `open` is `wave.open`. The
      existence check comes first, then the suffix, then the file is read;
      sample widths other than 2 and 4 bytes are refused. The result is the
      normalised array, the sample rate and the channel count. */
  function LoadWavFile(path: string, pathExists: string -> bool, open: string -> Result<WavContents>)
    : (r: Result<(AudioArray, int, int)>)
    ensures !pathExists(path) ==> r == Raised(Exception(FileNotFoundError, "WAV file not found: " + path))
    ensures pathExists(path) && !HasWavSuffix(path) ==>
              r == Raised(Exception(ValueError, "File must have .wav extension: " + path))
    ensures pathExists(path) && HasWavSuffix(path) && open(path).Raised? ==> r == open(path).PropagateFailure()
    ensures r.Ok? <==> pathExists(path) && HasWavSuffix(path) && open(path).Ok? && Decodable(open(path).value)
    ensures pathExists(path) && HasWavSuffix(path) && open(path).Ok? && !Decodable(open(path).value) ==>
              r.Raised? && r.error.kind == ValueError
    ensures r.Ok? ==> var w := open(path).value;
              && r.value.1 == w.sampleRate && r.value.2 == w.channels
              && Samples(r.value.0) == DecodeFrames(w).value
              && (w.channels <= 1 ==> r.value.0.Flat?)
              && (w.channels > 1 ==> r.value.0.Rows? && |r.value.0.rows| == |w.frames| / w.sampleWidth / w.channels
                                     && forall i :: 0 <= i < |r.value.0.rows| ==> |r.value.0.rows[i]| == w.channels)
  {
    if !pathExists(path) then Raised(Exception(FileNotFoundError, "WAV file not found: " + path))
    else if !HasWavSuffix(path) then Raised(Exception(ValueError, "File must have .wav extension: " + path))
    else
      var w :- open(path);
      var values :- DecodeFrames(w);
      var arr :- if w.channels > 1 then Reshape(values, w.channels) else Ok(Flat(values));
      Ok((arr, w.sampleRate, w.channels))
  }

  /** A mono 16-bit WAV file whose frames are the encoding of some samples
      loads as exactly those samples, each divided by 32768, with the file's
      rate. */
  lemma LoadEncodedMono(path: string, pathExists: string -> bool, open: string -> Result<WavContents>,
                        samples: seq<int>, rate: int)
    requires InInt16Range(samples)
    requires pathExists(path) && HasWavSuffix(path)
    requires open(path) == Ok(WavContents(rate, 1, 2, EncodeInt16(samples)))
    ensures LoadWavFile(path, pathExists, open)
         == Ok((Flat(seq(|samples|, i requires 0 <= i < |samples| => samples[i] as real / 32768.0)), rate, 1))
  {
    var w := open(path).value;
    DecodeEncodeInt16(samples);
    var values := DecodeFrames(w).value;
    forall i | 0 <= i < |samples| ensures values[i] == samples[i] as real / 32768.0 {
      assert FromBufferInt16(w.frames).value[i] == Int16At(w.frames, i);
    }
  }

  /** A request carrying the encoding of whole frames of `channels` samples
      decodes, and its array has one entry per frame, which is what the
      playing time is computed from. */
  lemma EncodedFrames(samples: seq<int>, sampleRate: int, channels: int)
    requires InInt16Range(samples)
    requires channels >= 1 && |samples| % channels == 0
    ensures ParseAudioData(PlaybackRequest(EncodeInt16(samples), sampleRate, channels)).Ok?
    ensures Length(ParseAudioData(PlaybackRequest(EncodeInt16(samples), sampleRate, channels)).value)
         == |samples| / channels
  {
    var b := EncodeInt16(samples);
    var n := |samples|;
    assert |b| == 2 * n;
    assert |b| % 2 == 0 && |b| / 2 == n;
    var r := ParseAudioData(PlaybackRequest(b, sampleRate, channels));
    assert r.Ok?;
    if channels <= 1 {
      assert Length(r.value) == |Samples(r.value)| == n;
    } else {
      assert |r.value.rows| == n / channels;
    }
  }

  /* ---------------- the is_playing flag ---------------- */

  /** The adapter's state: the configured device index and `_is_playing`. */
  datatype Adapter = Adapter(deviceIndex: Option<int>, isPlaying: bool)

  function Init(deviceIndex: Option<int>): (a: Adapter)
    ensures !a.isPlaying && a.deviceIndex == deviceIndex
  {
    Adapter(deviceIndex, false)
  }

  /** `is_playing`. */
  function IsPlaying(a: Adapter): bool {
    a.isPlaying
  }

  /** `is_playing` outside a play: false for a new adapter and after a
      `stop` whose `sd.stop()` returned; a `stop` that raised leaves it as it
      was. */
  lemma FlagLifeCycle(deviceIndex: Option<int>, a: Adapter, hardware: Result<()>)
    ensures !IsPlaying(Init(deviceIndex))
    ensures hardware.Ok? ==> !IsPlaying(Stop(a, hardware).0)
    ensures hardware.Raised? ==> IsPlaying(Stop(a, hardware).0) == IsPlaying(a)
  {
  }

  /** One `_play_sync` call: the adapter while the hardware plays, the
      adapter afterwards, the device handed to `sd.play`, and the duration
      returned or the exception raised. */
  datatype PlayRun = PlayRun(during: Adapter, after: Adapter, device: Option<int>, result: Result<real>)

  /** `_play_sync`. The flag is set before anything else and cleared in the
      `finally` clause, so it is set while the hardware plays and clear
      afterwards whether the play returned or raised. `hardware` is the
      outcome of `sd.play` followed by `sd.wait`. The duration is
      `len(array) / sample_rate`; a zero rate raises ZeroDivisionError. The
      device handed to `sd.play` is the one `_resolve_output_device` picks. */
  method PlaySync(a: Adapter, audio: AudioArray, sampleRate: int,
                  devices: Option<seq<DeviceInfo>>, hardware: Result<()>) returns (run: PlayRun)
    ensures run.during == a.(isPlaying := true)
    ensures run.after == a.(isPlaying := false)
    ensures a.deviceIndex.Some? ==> run.device == a.deviceIndex
    ensures a.deviceIndex.None? && devices.None? ==> run.device == None
    ensures a.deviceIndex.None? && devices.Some? ==>
              (run.device.None? <==> forall i :: 0 <= i < |devices.value| ==> !IsSoundServer(devices.value[i]))
    ensures a.deviceIndex.None? && run.device.Some? ==>
              && devices.Some?
              && 0 <= run.device.value < |devices.value|
              && IsSoundServer(devices.value[run.device.value])
              && forall j :: 0 <= j < run.device.value ==> !IsSoundServer(devices.value[j])
    ensures run.result.Ok? <==> hardware.Ok? && sampleRate != 0
    ensures hardware.Raised? ==> run.result == hardware.PropagateFailure()
    ensures hardware.Ok? && sampleRate == 0 ==> run.result.error.kind == ZeroDivisionError
    ensures run.result.Ok? ==> run.result.value == Length(audio) as real / sampleRate as real
  {
    var during := a.(isPlaying := true);
    var device := ResolveOutputDevice(during.deviceIndex, devices);
    var result: Result<real>;
    if hardware.Raised? {
      result := Raised(hardware.error);
    } else if sampleRate == 0 {
      result := Raised(Exception(ZeroDivisionError, "division by zero"));
    } else {
      result := Ok(Length(audio) as real / sampleRate as real);
    }
    run := PlayRun(during, during.(isPlaying := false), device, result);
  }

  /** `play`: decode the request, then `_play_sync`. A decoding error is
      raised before the flag is touched. */
  method Play(a: Adapter, request: PlaybackRequest, devices: Option<seq<DeviceInfo>>, hardware: Result<()>)
    returns (after: Adapter, status: Result<PlaybackStatus>)
    ensures !after.isPlaying || after == a
    ensures ParseAudioData(request).Raised? ==> after == a && status == ParseAudioData(request).PropagateFailure()
    ensures ParseAudioData(request).Ok? ==> after == a.(isPlaying := false)
    ensures status.Ok? <==> ParseAudioData(request).Ok? && hardware.Ok? && request.sampleRate != 0
    ensures ParseAudioData(request).Ok? && hardware.Raised? ==> status == hardware.PropagateFailure()
    ensures ParseAudioData(request).Ok? && hardware.Ok? && request.sampleRate == 0 ==>
              status.Raised? && status.error.kind == ZeroDivisionError
    ensures status.Ok? ==> status.value == PlaybackStatus(false,
              Some(Length(ParseAudioData(request).value) as real / request.sampleRate as real))
  {
    var parsed := ParseAudioData(request);
    if parsed.Raised? {
      return a, parsed.PropagateFailure();
    }
    var run := PlaySync(a, parsed.value, request.sampleRate, devices, hardware);
    after := run.after;
    if run.result.Raised? {
      status := run.result.PropagateFailure();
    } else {
      status := Ok(PlaybackStatus(false, Some(run.result.value)));
    }
  }

  /** `play_file`: load and validate the WAV file, then `_play_sync`. */
  method PlayFile(a: Adapter, path: string, pathExists: string -> bool, open: string -> Result<WavContents>,
                  devices: Option<seq<DeviceInfo>>, hardware: Result<()>)
    returns (after: Adapter, status: Result<PlaybackStatus>)
    ensures LoadWavFile(path, pathExists, open).Raised? ==>
              after == a && status == LoadWavFile(path, pathExists, open).PropagateFailure()
    ensures LoadWavFile(path, pathExists, open).Ok? ==> after == a.(isPlaying := false)
    ensures status.Ok? <==> LoadWavFile(path, pathExists, open).Ok? && hardware.Ok?
                            && LoadWavFile(path, pathExists, open).value.1 != 0
    ensures LoadWavFile(path, pathExists, open).Ok? && hardware.Raised? ==> status == hardware.PropagateFailure()
    ensures LoadWavFile(path, pathExists, open).Ok? && hardware.Ok? && LoadWavFile(path, pathExists, open).value.1 == 0 ==>
              status.Raised? && status.error.kind == ZeroDivisionError
    ensures status.Ok? ==> var (arr, rate, _) := LoadWavFile(path, pathExists, open).value;
              rate != 0 && status.value == PlaybackStatus(false, Some(Length(arr) as real / rate as real))
  {
    var loaded := LoadWavFile(path, pathExists, open);
    if loaded.Raised? {
      return a, loaded.PropagateFailure();
    }
    var (arr, rate, _) := loaded.value;
    var run := PlaySync(a, arr, rate, devices, hardware);
    after := run.after;
    if run.result.Raised? {
      status := run.result.PropagateFailure();
    } else {
      status := Ok(PlaybackStatus(false, Some(run.result.value)));
    }
  }

  /** `stop`: `sd.stop()` first, then the flag is cleared. If `sd.stop()`
      raises, the exception escapes before the flag is touched. */
  function Stop(a: Adapter, hardware: Result<()>): (r: (Adapter, Result<()>))
    ensures hardware.Ok? ==> !r.0.isPlaying && r.0.deviceIndex == a.deviceIndex && r.1 == Ok(())
    ensures hardware.Raised? ==> r == (a, hardware)
  {
    if hardware.Raised? then (a, hardware) else (a.(isPlaying := false), Ok(()))
  }
}

=== FILE: playback_service.dfy ===
/**
  `AudioPlaybackService` (`tts_server/services/audio_playback.py`): path
  validation in front of the playback port, and plain forwarding of `play`,
  `stop` and `is_playing`.

  The port the service forwards to is the sound-device adapter of module
  `Playback`; its hardware outcomes stay oracles.
 */
module PlaybackService {
  import opened Common
  import opened Text
  import opened PosixPath
  import opened Domain
  import Playback

  /** The service holds nothing but its adapter. */
  datatype Service = Service(adapter: Playback.Adapter)

  /** The three checks of `play_file`, in the order the code makes them:
      the path must be absolute (whether or not it exists), must exist, and
      must end in `.wav` in any letter case. */
  function CheckWavPath(path: string, pathExists: string -> bool): (r: Result<()>)
    ensures r.Ok? <==> IsAbsolute(path) && pathExists(path) && Playback.HasWavSuffix(path)
    ensures !IsAbsolute(path) ==> r == Raised(Exception(ValueError, "File path must be absolute: " + path))
    ensures IsAbsolute(path) && !pathExists(path) ==>
              r == Raised(Exception(FileNotFoundError, "WAV file not found: " + path))
    ensures IsAbsolute(path) && pathExists(path) && !Playback.HasWavSuffix(path) ==>
              r == Raised(Exception(ValueError, "File must have .wav extension: " + path))
  {
    if !IsAbsolute(path) then Raised(Exception(ValueError, "File path must be absolute: " + path))
    else if !pathExists(path) then Raised(Exception(FileNotFoundError, "WAV file not found: " + path))
    else if !Playback.HasWavSuffix(path) then Raised(Exception(ValueError, "File must have .wav extension: " + path))
    else Ok(())
  }

  /** `play_file` against an arbitrary port: once the checks pass, the port's
      `play_file` gets the identical path and its result is returned as is;
      otherwise the port is never called. */
  function PlayFileVia(path: string, pathExists: string -> bool,
                       portPlayFile: string -> Result<PlaybackStatus>): (r: Result<PlaybackStatus>)
    ensures CheckWavPath(path, pathExists).Ok? ==> r == portPlayFile(path)
    ensures CheckWavPath(path, pathExists).Raised? ==> r == CheckWavPath(path, pathExists).PropagateFailure()
  {
    var _ :- CheckWavPath(path, pathExists);
    portPlayFile(path)
  }

  /** `play_file` against the sound-device adapter. The adapter repeats the
      existence and suffix checks, which can then never fire: the outcome is
      whatever reading and playing the file gives. */
  method PlayFile(s: Service, path: string, pathExists: string -> bool,
                  open: string -> Result<Playback.WavContents>,
                  devices: Option<seq<Playback.DeviceInfo>>, hardware: Result<()>)
    returns (s': Service, status: Result<PlaybackStatus>)
    ensures CheckWavPath(path, pathExists).Raised? ==>
              s' == s && status == CheckWavPath(path, pathExists).PropagateFailure()
    ensures CheckWavPath(path, pathExists).Ok? && Playback.LoadWavFile(path, pathExists, open).Raised? ==>
              && s' == s
              && status == Playback.LoadWavFile(path, pathExists, open).PropagateFailure()
              && (open(path).Raised? ==> status == open(path).PropagateFailure())
              && (open(path).Ok? ==> !Playback.Decodable(open(path).value) && status.error.kind == ValueError)
    ensures status.Ok? <==> && CheckWavPath(path, pathExists).Ok?
                            && Playback.LoadWavFile(path, pathExists, open).Ok?
                            && hardware.Ok?
                            && Playback.LoadWavFile(path, pathExists, open).value.1 != 0
    ensures CheckWavPath(path, pathExists).Ok? && Playback.LoadWavFile(path, pathExists, open).Ok? ==>
              && s'.adapter == s.adapter.(isPlaying := false)
              && (hardware.Raised? ==> status == hardware.PropagateFailure())
    ensures status.Ok? ==> var (arr, rate, _) := Playback.LoadWavFile(path, pathExists, open).value;
              status.value == PlaybackStatus(false, Some(Playback.Length(arr) as real / rate as real))
    ensures !s'.adapter.isPlaying || s' == s
  {
    var checked := CheckWavPath(path, pathExists);
    if checked.Raised? {
      return s, checked.PropagateFailure();
    }
    var adapter;
    adapter, status := Playback.PlayFile(s.adapter, path, pathExists, open, devices, hardware);
    s' := Service(adapter);
  }

  /** `play(audio_data, sample_rate, channels=1)`: exactly one request,
      built from the arguments unchanged, goes to the port. */
  function PlayRequest(audioData: Bytes, sampleRate: int, channels: int := 1): (r: PlaybackRequest)
    ensures r.audioData == audioData && r.sampleRate == sampleRate && r.channels == channels
  {
    PlaybackRequest(audioData, sampleRate, channels)
  }

  method Play(s: Service, audioData: Bytes, sampleRate: int, channels: int,
              devices: Option<seq<Playback.DeviceInfo>>, hardware: Result<()>)
    returns (s': Service, status: Result<PlaybackStatus>)
    ensures Playback.ParseAudioData(PlayRequest(audioData, sampleRate, channels)).Raised? ==>
              s' == s && status == Playback.ParseAudioData(PlayRequest(audioData, sampleRate, channels)).PropagateFailure()
    ensures Playback.ParseAudioData(PlayRequest(audioData, sampleRate, channels)).Ok? ==>
              s'.adapter == s.adapter.(isPlaying := false)
    ensures status.Ok? <==> Playback.ParseAudioData(PlayRequest(audioData, sampleRate, channels)).Ok?
                            && hardware.Ok? && sampleRate != 0
    ensures Playback.ParseAudioData(PlayRequest(audioData, sampleRate, channels)).Ok? && hardware.Raised? ==>
              status == hardware.PropagateFailure()
    ensures status.Ok? ==> status.value == PlaybackStatus(false,
              Some(Playback.Length(Playback.ParseAudioData(PlayRequest(audioData, sampleRate, channels)).value) as real
                   / sampleRate as real))
  {
    var adapter;
    adapter, status := Playback.Play(s.adapter, PlayRequest(audioData, sampleRate, channels), devices, hardware);
    s' := Service(adapter);
  }

  /** `stop` forwards to the adapter and adds nothing. */
  function Stop(s: Service, hardware: Result<()>): (r: (Service, Result<()>))
    ensures r.0.adapter == Playback.Stop(s.adapter, hardware).0
    ensures r.1 == Playback.Stop(s.adapter, hardware).1
    ensures hardware.Ok? ==> !IsPlaying(r.0)
  {
    var (a, result) := Playback.Stop(s.adapter, hardware);
    (Service(a), result)
  }

  /** `is_playing` reports the adapter's flag. */
  function IsPlaying(s: Service): (b: bool)
    ensures b == Playback.IsPlaying(s.adapter)
  {
    Playback.IsPlaying(s.adapter)
  }

  /** A relative path is refused whether or not it exists and whatever its
      extension. */
  lemma RelativeAlwaysRefused(path: string, e1: string -> bool, e2: string -> bool)
    requires !IsAbsolute(path)
    ensures CheckWavPath(path, e1) == CheckWavPath(path, e2)
    ensures CheckWavPath(path, e1).error.kind == ValueError
  {
  }

  /** An existing absolute path whose name ends in `.WAV` passes: the suffix
      comparison ignores letter case. */
  lemma UpperCaseWavAccepted(dir: string, stem: string, pathExists: string -> bool)
    requires IsAbsolute(dir) && stem != "" && '/' !in stem
    requires pathExists(Join(dir, stem + ".WAV"))
    ensures CheckWavPath(Join(dir, stem + ".WAV"), pathExists) == Ok(())
  {
    var path := Join(dir, stem + ".WAV");
    assert path[..|dir|] == dir;
    assert IsAbsolute(path);
    assert stem + ".WAV" == stem + "." + "WAV";
    SuffixOfName(dir, stem, "WAV");
    LowerWav();
    assert Playback.HasWavSuffix(path);
  }

  lemma LowerWav()
    ensures Lower(".WAV") == ".wav"
  {
    var l := Lower(".WAV");
    assert l[0] == '.' && l[1] == 'w' && l[2] == 'a' && l[3] == 'v';
  }

  /** A path that does not exist is reported missing even when its
      extension is wrong: existence is checked first. */
  lemma MissingBeforeExtension(dir: string, stem: string, pathExists: string -> bool)
    requires IsAbsolute(dir) && stem != "" && '/' !in stem
    requires !pathExists(Join(dir, stem + ".txt"))
    ensures CheckWavPath(Join(dir, stem + ".txt"), pathExists).error.kind == FileNotFoundError
  {
  }

  /** An existing absolute `.txt` file is refused as having the wrong
      extension. */
  lemma TextFileRefused(dir: string, stem: string, pathExists: string -> bool)
    requires IsAbsolute(dir) && stem != "" && '/' !in stem
    requires pathExists(Join(dir, stem + ".txt"))
    ensures CheckWavPath(Join(dir, stem + ".txt"), pathExists)
         == Raised(Exception(ValueError, "File must have .wav extension: " + Join(dir, stem + ".txt")))
  {
    assert stem + ".txt" == stem + "." + "txt";
    SuffixOfName(dir, stem, "txt");
    var l := Lower(".txt");
    assert l[1] == 't';
  }
}

=== FILE: posix_path.dfy ===
/**
  The parts of `pathlib.PurePosixPath` the playback and repository code
  rely on: `is_absolute()`, `name`, `suffix` and the `/` join operator,
  over paths held as plain strings.
 */
module PosixPath {

  /** Index of the last occurrence of `c` in `s`, or -1. */
  function LastIndexOf(s: string, c: char): (r: int)
    ensures -1 <= r < |s|
    ensures r >= 0 ==> s[r] == c
    ensures forall j :: r < j < |s| ==> s[j] != c
  {
    if s == [] then -1
    else if s[|s| - 1] == c then |s| - 1
    else LastIndexOf(s[..|s| - 1], c)
  }

  /** A POSIX path is absolute exactly when it has the root `/`. */
  predicate IsAbsolute(p: string) {
    |p| > 0 && p[0] == '/'
  }

  /** `PurePosixPath(p).name`: the last component once empty components
      (repeated or trailing slashes) and `.` components are discarded;
      the empty string when there is none. */
  function Name(p: string): (r: string)
    ensures '/' !in r
    ensures r != "."
    decreases |p|
  {
    var k := LastIndexOf(p, '/');
    var tail := p[k + 1..];
    if tail != "" && tail != "." then tail
    else if k < 0 then ""
    else Name(p[..k])
  }

  /** `PurePosixPath(p).suffix`: from the last dot of the name, provided that
      dot is neither the first nor the last character of the name. */
  function Suffix(p: string): (r: string)
    ensures r == "" || (r[0] == '.' && |r| >= 2 && '.' !in r[1..])
  {
    var n := Name(p);
    var i := LastIndexOf(n, '.');
    if 0 < i < |n| - 1 then n[i..] else ""
  }

  /** `Path(dir) / name` rendered with `str`, for a single component `name`. */
  function Join(dir: string, name: string): string {
    if dir == "" then name
    else if dir[|dir| - 1] == '/' then dir + name
    else dir + "/" + name
  }

  lemma LastIndexOfSuffixFree(a: string, c: char, b: string)
    requires c !in b
    ensures LastIndexOf(a + [c] + b, c) == |a|
  {
    var s := a + [c] + b;
    var r := LastIndexOf(s, c);
    assert s[|a|] == c;
  }

  /** The name of a joined path is the component that was joined on. */
  lemma NameOfJoin(dir: string, name: string)
    requires name != "" && name != "." && '/' !in name
    ensures Name(Join(dir, name)) == name
  {
    var p := Join(dir, name);
    if dir == "" {
      assert LastIndexOf(p, '/') == -1;
    } else if dir[|dir| - 1] == '/' {
      var a := dir[..|dir| - 1];
      assert p == a + ['/'] + name;
      LastIndexOfSuffixFree(a, '/', name);
    } else {
      assert p == dir + ['/'] + name;
      LastIndexOfSuffixFree(dir, '/', name);
    }
  }

  /** A name of the form `stem.ext`, with a non-empty stem and a dot-free,
      non-empty extension, has suffix `.ext`. */
  lemma SuffixOfName(dir: string, stem: string, ext: string)
    requires stem != "" && ext != ""
    requires '/' !in stem && '/' !in ext && '.' !in ext
    ensures Suffix(Join(dir, stem + "." + ext)) == "." + ext
  {
    var n := stem + "." + ext;
    assert '/' !in n by {
      forall i | 0 <= i < |n| ensures n[i] != '/' {
        if i < |stem| { assert n[i] == stem[i]; }
        else if i > |stem| { assert n[i] == ext[i - |stem| - 1]; }
      }
    }
    assert n != "." by { assert |n| >= 3; }
    NameOfJoin(dir, n);
    assert n == stem + ['.'] + ext;
    LastIndexOfSuffixFree(stem, '.', ext);
    assert n[|stem|..] == "." + ext;
  }

  /** Within one directory, distinct names give distinct paths. */
  lemma JoinInjective(dir: string, x: string, y: string)
    requires Join(dir, x) == Join(dir, y)
    ensures x == y
  {
    var prefix := if dir == "" then "" else if dir[|dir| - 1] == '/' then dir else dir + "/";
    assert Join(dir, x) == prefix + x && Join(dir, y) == prefix + y;
    assert x == (prefix + x)[|prefix|..];
    assert y == (prefix + y)[|prefix|..];
  }
}

=== FILE: repository.dfy ===
/**
  `FileVoiceRepository` (`tts_server/adapters/repository/repository.py`):
  voice records kept in a JSON index `metadata.json` keyed by the voice id's
  text, and each voice's data in `{id}.voice` beside it.

  The index is modelled as the value `json.load` returns: an ordered list
  of key/value entries with distinct keys (Python dicts keep insertion
  order, which `list_all` exposes). The voice data files are a map from path
  to contents. Reading and writing either is immediate and cannot fail.
 */
module Repository {
  import opened Common
  import opened PosixPath
  import opened Domain

  const VoiceExtension: string := ".voice"

  /** One `key: value` pair of the index. */
  datatype Entry = Entry(key: string, value: Json)

  /** The repository: its resolved directory, the decoded index, and the
      data files on disk. */
  datatype Repo = Repo(voicesDir: string, index: seq<Entry>, files: map<string, Bytes>)

  /* ---------------- the index as an ordered dict ---------------- */

  function Keys(index: seq<Entry>): set<string>
    decreases |index|
  {
    if index == [] then {} else {index[0].key} + Keys(index[1..])
  }

  /** No key occurs twice, as in any dict. */
  predicate Distinct(index: seq<Entry>)
    decreases |index|
  {
    index == [] || (index[0].key !in Keys(index[1..]) && Distinct(index[1..]))
  }

  /** `index.get(key)`. */
  function Lookup(index: seq<Entry>, key: string): (r: Option<Json>)
    ensures r.None? <==> key !in Keys(index)
    decreases |index|
  {
    if index == [] then None
    else if index[0].key == key then Some(index[0].value)
    else Lookup(index[1..], key)
  }

  /** Where `key` first occurs in the index. */
  function IndexOf(index: seq<Entry>, key: string): (j: nat)
    requires key in Keys(index)
    ensures j < |index| && index[j].key == key
    ensures forall i :: 0 <= i < j ==> index[i].key != key
    decreases |index|
  {
    if index[0].key == key then 0 else 1 + IndexOf(index[1..], key)
  }

  /** `index[key] = value`: the key gets the new value and every other key
      keeps its value; a new key goes at the end. That an existing key's
      entry is replaced in place is `PutInPlace`. */
  function Put(index: seq<Entry>, key: string, value: Json): (r: seq<Entry>)
    ensures Lookup(r, key) == Some(value)
    ensures forall k :: k != key ==> Lookup(r, k) == Lookup(index, k)
    ensures Keys(r) == Keys(index) + {key}
    ensures Distinct(index) ==> Distinct(r)
    ensures key in Keys(index) ==> |r| == |index|
    ensures key !in Keys(index) ==> r == index + [Entry(key, value)]
    decreases |index|
  {
    if index == [] then [Entry(key, value)]
    else if index[0].key == key then [Entry(key, value)] + index[1..]
    else
      var rest := Put(index[1..], key, value);
      assert index == [index[0]] + index[1..];
      [index[0]] + rest
  }

  /** Setting a present key replaces its entry where it stands: the entries
      before and after it stay, in their order. */
  lemma {:induction false} PutInPlace(index: seq<Entry>, key: string, value: Json)
    requires key in Keys(index)
    ensures Put(index, key, value)
         == index[..IndexOf(index, key)] + [Entry(key, value)] + index[IndexOf(index, key) + 1..]
    decreases |index|
  {
    if index[0].key != key {
      PutInPlace(index[1..], key, value);
      SpliceCons(index, IndexOf(index[1..], key), [Entry(key, value)]);
    }
  }

  /** `del index[key]` for a present key (and nothing for an absent one):
      the key disappears and every other key keeps its value. That the other
      entries also keep their order is `RemoveInPlace`. */
  function Remove(index: seq<Entry>, key: string): (r: seq<Entry>)
    ensures Lookup(r, key) == None
    ensures forall k :: k != key ==> Lookup(r, k) == Lookup(index, k)
    ensures Keys(r) == Keys(index) - {key}
    ensures Distinct(index) ==> Distinct(r)
    ensures key !in Keys(index) ==> r == index
    ensures Distinct(index) && key in Keys(index) ==> |r| == |index| - 1
    decreases |index|
  {
    if index == [] then []
    else if index[0].key == key then Remove(index[1..], key)
    else
      var rest := Remove(index[1..], key);
      assert key !in Keys(index[1..]) ==> index == [index[0]] + index[1..];
      [index[0]] + rest
  }

  /** In a dict, deleting a present key removes exactly its entry: the
      entries before and after it stay, in their order. */
  lemma {:induction false} RemoveInPlace(index: seq<Entry>, key: string)
    requires Distinct(index) && key in Keys(index)
    ensures Remove(index, key) == index[..IndexOf(index, key)] + index[IndexOf(index, key) + 1..]
    decreases |index|
  {
    if index[0].key == key {
      assert key !in Keys(index[1..]);
    } else {
      RemoveInPlace(index[1..], key);
      SpliceCons(index, IndexOf(index[1..], key), []);
    }
  }

  /** Replacing the entry at `j + 1` of a list is replacing the entry at
      `j` of its tail, behind the same head. */
  lemma SpliceCons(index: seq<Entry>, j: nat, mid: seq<Entry>)
    requires j + 1 < |index|
    ensures [index[0]] + (index[1..][..j] + mid + index[1..][j + 1..]) == index[..j + 1] + mid + index[j + 2..]
  {
    assert index[..j + 1] == [index[0]] + index[1..][..j];
    assert index[j + 2..] == index[1..][j + 1..];
  }

  /* ---------------- records ---------------- */

  /** `_voice_file_path`: `{voices_dir}/{id}.voice`. */
  function VoiceFilePath(voicesDir: string, id: Uuid): string {
    Join(voicesDir, id + VoiceExtension)
  }

  /** Different voices never share a data file. */
  lemma VoiceFilePathInjective(voicesDir: string, a: Uuid, b: Uuid)
    requires VoiceFilePath(voicesDir, a) == VoiceFilePath(voicesDir, b)
    ensures a == b
  {
    JoinInjective(voicesDir, a + VoiceExtension, b + VoiceExtension);
    assert a == (a + VoiceExtension)[..36];
    assert b == (b + VoiceExtension)[..36];
  }

  /** `_voice_to_dict`: the dataclass fields, with the id as its text and
      the timestamp in ISO form. */
  function VoiceToDict(v: VoiceModel): (d: map<string, Json>)
    ensures d.Keys == {"id", "name", "description", "language", "created_at", "file_path", "metadata"}
  {
    map[
      "id" := JStr(v.id),
      "name" := JStr(v.name),
      "description" := JStr(v.description),
      "language" := JStr(v.language),
      "created_at" := JStr(IsoFormat(v.createdAt)),
      "file_path" := (if v.filePath.Some? then JStr(v.filePath.value) else JNull),
      "metadata" := JObject(v.metadata)]
  }

  /** `data[key]`. */
  function Field(d: map<string, Json>, key: string): (r: Result<Json>)
    ensures r.Ok? <==> key in d
    ensures r.Ok? ==> r.value == d[key]
    ensures r.Raised? ==> r.error.kind == KeyError
  {
    if key in d then Ok(d[key]) else Raised(Exception(KeyError, "'" + key + "'"))
  }

  /** A field the record needs as text. */
  function TextField(j: Json, what: string): (r: Result<string>)
    ensures r.Ok? <==> j.JStr?
    ensures r.Ok? ==> r.value == j.s
    ensures r.Raised? ==> r.error.kind == TypeError
  {
    if j.JStr? then Ok(j.s) else Raised(Exception(TypeError, what + " must be str"))
  }

  /** `UUID(data["id"])`: `None` is a TypeError, another non-string an
      AttributeError (it has no `replace`), a string is parsed. */
  function IdOf(j: Json): (r: Result<Uuid>)
    ensures r.Ok? <==> j.JStr? && IsCanonicalUuid(j.s)
    ensures r.Ok? ==> r.value == j.s
  {
    match j
    case JStr(s) => ParseUuid(s)
    case JNull => Raised(Exception(TypeError, "one of the hex, bytes, bytes_le, fields, or int arguments must be given"))
    case _ => Raised(Exception(AttributeError, "object has no attribute 'replace'"))
  }

  /** `data.get("file_path")`: absent or null is `None`. */
  function FilePathOf(d: map<string, Json>): (r: Result<Option<string>>)
    ensures "file_path" !in d ==> r == Ok(None)
    ensures "file_path" in d && d["file_path"].JNull? ==> r == Ok(None)
    ensures "file_path" in d && d["file_path"].JStr? ==> r == Ok(Some(d["file_path"].s))
  {
    if "file_path" !in d then Ok(None)
    else match d["file_path"]
      case JNull => Ok(None)
      case JStr(s) => Ok(Some(s))
      case _ => Raised(Exception(TypeError, "file_path must be str or None"))
  }

  /** `data.get("metadata", {})`: absent is the empty dict. */
  function MetadataOf(d: map<string, Json>): (r: Result<map<string, Json>>)
    ensures "metadata" !in d ==> r == Ok(map[])
    ensures "metadata" in d && d["metadata"].JObject? ==> r == Ok(d["metadata"].fields)
    ensures "metadata" in d && !d["metadata"].JObject? ==> r.Raised?
  {
    if "metadata" !in d then Ok(map[])
    else match d["metadata"]
      case JObject(m) => Ok(m)
      case _ => Raised(Exception(TypeError, "metadata must be a dict"))
  }

  /** `_dict_to_voice`. The fields are read in the order of the keyword
      arguments, so the first missing or malformed one decides the
      exception: a missing required key is a KeyError, a non-canonical id
      or timestamp a ValueError. */
  function DictToVoice(d: map<string, Json>): (r: Result<VoiceModel>)
    ensures "id" !in d ==> r.Raised? && r.error.kind == KeyError
    ensures r.Ok? ==> {"id", "name", "description", "language", "created_at"} <= d.Keys
    ensures r.Ok? ==>
              && d["id"] == JStr(r.value.id)
              && d["name"] == JStr(r.value.name)
              && d["description"] == JStr(r.value.description)
              && d["language"] == JStr(r.value.language)
              && d["created_at"].JStr?
              && FromIsoFormat(d["created_at"].s) == Ok(r.value.createdAt)
              && FilePathOf(d) == Ok(r.value.filePath)
              && MetadataOf(d) == Ok(r.value.metadata)
  {
    var idField :- Field(d, "id");
    var id :- IdOf(idField);
    var nameField :- Field(d, "name");
    var name :- TextField(nameField, "name");
    var descriptionField :- Field(d, "description");
    var description :- TextField(descriptionField, "description");
    var languageField :- Field(d, "language");
    var language :- TextField(languageField, "language");
    var createdField :- Field(d, "created_at");
    var createdText :- TextField(createdField, "fromisoformat: argument");
    var createdAt :- FromIsoFormat(createdText);
    var filePath :- FilePathOf(d);
    var metadata :- MetadataOf(d);
    Ok(VoiceModel(id, name, description, language, createdAt, filePath, metadata))
  }

  /** `_dict_to_voice` applied to an index value, which must be an object to
      be subscripted. */
  function EntryVoice(j: Json): (r: Result<VoiceModel>)
    ensures j.JObject? ==> r == DictToVoice(j.fields)
    ensures !j.JObject? ==> r.Raised? && r.error.kind == TypeError
  {
    if j.JObject? then DictToVoice(j.fields)
    else Raised(Exception(TypeError, "object is not subscriptable"))
  }

  /** A record holding a voice's fields in their stored forms reads back
      as that voice. */
  lemma ReadBack(d: map<string, Json>, v: VoiceModel)
    requires "id" in d && d["id"] == JStr(v.id)
    requires "name" in d && d["name"] == JStr(v.name)
    requires "description" in d && d["description"] == JStr(v.description)
    requires "language" in d && d["language"] == JStr(v.language)
    requires "created_at" in d && d["created_at"] == JStr(IsoFormat(v.createdAt))
    requires FilePathOf(d) == Ok(v.filePath)
    requires MetadataOf(d) == Ok(v.metadata)
    ensures DictToVoice(d) == Ok(v)
  {
    IsoFormatRoundTrip(v.createdAt);
  }

  /** Every voice survives `_voice_to_dict` followed by `_dict_to_voice`. */
  lemma RecordRoundTrip(v: VoiceModel)
    ensures DictToVoice(VoiceToDict(v)) == Ok(v)
  {
    var d := VoiceToDict(v);
    assert FilePathOf(d) == Ok(v.filePath);
    ReadBack(d, v);
  }

  /** A record without a `metadata` key reads back with empty metadata;
      nothing else changes. */
  lemma MissingMetadata(v: VoiceModel)
    ensures DictToVoice(VoiceToDict(v) - {"metadata"}) == Ok(v.(metadata := map[]))
  {
    var full := VoiceToDict(v);
    var d := full - {"metadata"};
    assert d["id"] == full["id"] && d["name"] == full["name"] && d["description"] == full["description"];
    assert d["language"] == full["language"] && d["created_at"] == full["created_at"];
    assert "file_path" in d && d["file_path"] == full["file_path"];
    assert FilePathOf(d) == Ok(v.filePath);
    ReadBack(d, v.(metadata := map[]));
  }

  /** A record without a `file_path` key reads back with no file path;
      nothing else changes. */
  lemma MissingFilePath(v: VoiceModel)
    ensures DictToVoice(VoiceToDict(v) - {"file_path"}) == Ok(v.(filePath := None))
  {
    var full := VoiceToDict(v);
    var d := full - {"file_path"};
    assert d["id"] == full["id"] && d["name"] == full["name"] && d["description"] == full["description"];
    assert d["language"] == full["language"] && d["created_at"] == full["created_at"];
    assert "metadata" in d && d["metadata"] == full["metadata"];
    ReadBack(d, v.(filePath := None));
  }

  /* ---------------- the repository ---------------- */

  /** The index is a dict and the directory is the resolved absolute one. */
  predicate Valid(r: Repo) {
    Distinct(r.index) && IsAbsolute(r.voicesDir)
  }

  /** `__init__` for an already resolved directory: an existing index is
      kept as it is (`existing`, the decoded `metadata.json`), a missing one
      is created empty. The data files already on disk are untouched. */
  function Init(voicesDir: string, existing: Option<seq<Entry>>, files: map<string, Bytes>): (r: Repo)
    requires IsAbsolute(voicesDir)
    requires existing.Some? ==> Distinct(existing.value)
    ensures Valid(r)
    ensures existing.None? ==> r.index == []
    ensures existing.Some? ==> r.index == existing.value
    ensures r.voicesDir == voicesDir && r.files == files
  {
    Repo(voicesDir, existing.GetOr([]), files)
  }

  /** `save`: the voice gets its data file's path, the data is written
      there, and the index entry for its id is set to the voice's record.
      The returned voice is the given one with the file path set. */
  function Save(r: Repo, v: VoiceModel, data: Bytes): (res: (Repo, VoiceModel))
    ensures res.1 == v.(filePath := Some(VoiceFilePath(r.voicesDir, v.id)))
    ensures res.0.voicesDir == r.voicesDir
    ensures Valid(r) ==> Valid(res.0)
  {
    var path := VoiceFilePath(r.voicesDir, v.id);
    var saved := v.(filePath := Some(path));
    (Repo(r.voicesDir, Put(r.index, v.id, JObject(VoiceToDict(saved))), r.files[path := data]), saved)
  }

  /** `get`: no entry, or a null one, is `None`; otherwise the record read
      back, or the exception reading it raised. */
  function Get(r: Repo, id: Uuid): (res: Result<Option<VoiceModel>>)
    ensures Lookup(r.index, id).None? ==> res == Ok(None)
    ensures Lookup(r.index, id) == Some(JNull) ==> res == Ok(None)
    ensures Lookup(r.index, id).Some? && !Lookup(r.index, id).value.JNull? ==>
              var read := EntryVoice(Lookup(r.index, id).value);
              && (read.Ok? ==> res == Ok(Some(read.value)))
              && (read.Raised? ==> res == read.PropagateFailure())
    ensures res.Ok? && res.value.Some? ==>
              Lookup(r.index, id).Some? && EntryVoice(Lookup(r.index, id).value) == Ok(res.value.value)
  {
    match Lookup(r.index, id)
    case None => Ok(None)
    case Some(j) =>
      if j.JNull? then Ok(None)
      else
        var v :- EntryVoice(j);
        Ok(Some(v))
  }

  /** `get_voice_data`: the contents of the voice's data file, `None` when
      there is no such file (whatever the index says). */
  function GetVoiceData(r: Repo, id: Uuid): (res: Option<Bytes>)
    ensures res.Some? <==> VoiceFilePath(r.voicesDir, id) in r.files
    ensures res.Some? ==> res.value == r.files[VoiceFilePath(r.voicesDir, id)]
  {
    var path := VoiceFilePath(r.voicesDir, id);
    if path in r.files then Some(r.files[path]) else None
  }

  /** `exists`: whether the index has an entry for the id. */
  function Exists(r: Repo, id: Uuid): (b: bool)
    ensures b <==> Lookup(r.index, id).Some?
  {
    id in Keys(r.index)
  }

  /** A list comprehension whose element expression may raise: the first
      exception escapes, otherwise every value, in order. */
  function Collect<T>(rs: seq<Result<T>>): (res: Result<seq<T>>)
    ensures res.Ok? <==> forall i :: 0 <= i < |rs| ==> rs[i].Ok?
    ensures res.Ok? ==> |res.value| == |rs|
    ensures res.Ok? ==> forall i :: 0 <= i < |rs| ==> rs[i] == Ok(res.value[i])
    decreases |rs|
  {
    if rs == [] then Ok([])
    else
      var first :- rs[0];
      var rest :- Collect(rs[1..]);
      assert forall i :: 1 <= i < |rs| ==> rs[i] == rs[1..][i - 1];
      Ok([first] + rest)
  }

  /** `list_all`: one voice per index entry, in the index's order; it
      raises exactly when some entry does not read back as a voice. */
  function ListAll(r: Repo): (res: Result<seq<VoiceModel>>)
    ensures res.Ok? <==> forall i :: 0 <= i < |r.index| ==> EntryVoice(r.index[i].value).Ok?
    ensures res.Ok? ==> |res.value| == |r.index|
    ensures res.Ok? ==> forall i :: 0 <= i < |r.index| ==> EntryVoice(r.index[i].value) == Ok(res.value[i])
  {
    var outcomes := seq(|r.index|, i requires 0 <= i < |r.index| => EntryVoice(r.index[i].value));
    assert forall i :: 0 <= i < |r.index| ==> outcomes[i] == EntryVoice(r.index[i].value);
    Collect(outcomes)
  }

  /** `delete`: `False` and nothing touched when the index has no entry for
      the id; otherwise the entry and the data file (if any) are removed and
      the answer is `True`. */
  function Delete(r: Repo, id: Uuid): (res: (Repo, bool))
    ensures res.1 <==> Exists(r, id)
    ensures !res.1 ==> res.0 == r
    ensures Valid(r) ==> Valid(res.0)
  {
    if id !in Keys(r.index) then (r, false)
    else (Repo(r.voicesDir, Remove(r.index, id), r.files - {VoiceFilePath(r.voicesDir, id)}), true)
  }

  /* ---------------- properties ---------------- */

  /** A repository created without an index lists no voices and has none. */
  lemma NewRepositoryEmpty(voicesDir: string, files: map<string, Bytes>, id: Uuid)
    requires IsAbsolute(voicesDir)
    ensures ListAll(Init(voicesDir, None, files)) == Ok([])
    ensures !Exists(Init(voicesDir, None, files), id)
    ensures Get(Init(voicesDir, None, files), id) == Ok(None)
  {
  }

  /** After `save(v, d)`: the voice exists, `get` returns it with its file
      path set, and `get_voice_data` returns `d`. */
  lemma SaveThenRead(r: Repo, v: VoiceModel, data: Bytes)
    ensures var (r', saved) := Save(r, v, data);
            && Exists(r', v.id)
            && Get(r', v.id) == Ok(Some(saved))
            && GetVoiceData(r', v.id) == Some(data)
  {
    var (r', saved) := Save(r, v, data);
    RecordRoundTrip(saved);
  }

  /** `save` touches no other voice: for every other id, existence, the
      record and the data are what they were. */
  lemma SaveKeepsOthers(r: Repo, v: VoiceModel, data: Bytes, other: Uuid)
    requires other != v.id
    ensures var r' := Save(r, v, data).0;
            && Exists(r', other) == Exists(r, other)
            && Get(r', other) == Get(r, other)
            && GetVoiceData(r', other) == GetVoiceData(r, other)
  {
    if VoiceFilePath(r.voicesDir, other) == VoiceFilePath(r.voicesDir, v.id) {
      VoiceFilePathInjective(r.voicesDir, other, v.id);
    }
  }

  /** Saving an id already in the index overwrites its entry in place:
      every other entry keeps its place, so `list_all` keeps its order.
      Saving a new id appends its record. */
  lemma SaveOverwrites(r: Repo, v: VoiceModel, data: Bytes)
    ensures var (r', saved) := Save(r, v, data);
            var record := Entry(v.id, JObject(VoiceToDict(saved)));
            && (Exists(r, v.id) ==>
                  var j := IndexOf(r.index, v.id);
                  && |r'.index| == |r.index|
                  && r'.index[j] == record
                  && forall i :: 0 <= i < |r.index| && i != j ==> r'.index[i] == r.index[i])
            && (!Exists(r, v.id) ==> r'.index == r.index + [record])
  {
    if Exists(r, v.id) {
      PutInPlace(r.index, v.id, JObject(VoiceToDict(Save(r, v, data).1)));
    }
  }

  /** `delete` of an absent id answers `False` and changes nothing. */
  lemma DeleteAbsent(r: Repo, id: Uuid)
    requires !Exists(r, id)
    ensures Delete(r, id) == (r, false)
  {
  }

  /** After deleting a present id: `True`, and the voice no longer exists,
      `get` finds nothing and its data is gone. */
  lemma DeletePresent(r: Repo, id: Uuid)
    requires Exists(r, id)
    ensures var (r', deleted) := Delete(r, id);
            && deleted
            && !Exists(r', id)
            && Get(r', id) == Ok(None)
            && GetVoiceData(r', id) == None
  {
  }

  /** `delete` touches no other voice. */
  lemma DeleteKeepsOthers(r: Repo, id: Uuid, other: Uuid)
    requires other != id
    ensures var r' := Delete(r, id).0;
            && Exists(r', other) == Exists(r, other)
            && Get(r', other) == Get(r, other)
            && GetVoiceData(r', other) == GetVoiceData(r, other)
  {
    if VoiceFilePath(r.voicesDir, other) == VoiceFilePath(r.voicesDir, id) {
      VoiceFilePathInjective(r.voicesDir, other, id);
    }
  }

  /** Saving then deleting a voice that was not there leaves the index as
      it was. */
  lemma SaveThenDeleteRestoresIndex(r: Repo, v: VoiceModel, data: Bytes)
    requires Valid(r) && !Exists(r, v.id)
    ensures Delete(Save(r, v, data).0, v.id).0.index == r.index
  {
    var r' := Save(r, v, data).0;
    RemoveAppended(r.index, v.id, r'.index[|r'.index| - 1].value);
  }

  lemma {:induction false} RemoveAppended(index: seq<Entry>, key: string, value: Json)
    requires key !in Keys(index)
    ensures Remove(index + [Entry(key, value)], key) == index
    decreases |index|
  {
    if index == [] {
      assert [Entry(key, value)][1..] == [];
    } else {
      assert (index + [Entry(key, value)])[1..] == index[1..] + [Entry(key, value)];
      RemoveAppended(index[1..], key, value);
    }
  }
}

=== FILE: synth_play.dfy ===
/**
  `SynthPlayService.synthesize_and_play` of `tts_server/services/synth_play.py`.

  The three collaborators are oracles: the TTS port's `synthesize`, the
  playback port's `play`, and the optional `on_state_change` observer, each
  of which either returns or raises. Awaiting them is a plain call. One call
  of the service is a `Call`: the notifications the observer received, the
  requests handed to the two ports, and the returned status or the
  exception that escaped.
 */
module SynthPlay {
  import opened Common
  import opened Domain

  /** The four states the service reports. `synth_play.py` imports
      `SynthPlayState` from the domain models, which do not define it; the
      values here are the four the service and its router use. */
  datatype SynthPlayState = Synthesizing | Playing | Completed | Error

  /** One `on_state_change(state, message)` call. */
  datatype Notification = Notification(state: SynthPlayState, message: Option<string>)

  /** The attributes `synthesize_and_play` reads from the synthesis
      response, including the channel count it hands to playback.
      `TTSResponse` (`tts_server/domain/models.py`, lines 25-31) has no
      `channels` field; `SynthesizeAndPlayAsWritten` below models the service
      against that record, and `SynthesizeAndPlay` the evidently intended
      service, whose synthesis response carries the count. */
  datatype SynthesisResult = SynthesisResult(audioData: Bytes, sampleRate: int, channels: int)

  /** `self._tts.synthesize(request, voice)`. */
  type Synthesizer = (TTSRequest, Option<VoiceModel>) -> Result<SynthesisResult>

  /** `self._audio.play(request)`. */
  type Player = PlaybackRequest -> Result<PlaybackStatus>

  /** `on_state_change`: `Some(e)` when the callback raises `e` for that
      notification (after having received it). */
  type Observer = Notification -> Option<Exception>

  /** Everything one call of the service does, as seen from outside. */
  datatype Call = Call(
    notified: seq<Notification>,
    ttsRequest: Option<TTSRequest>,
    playbackRequest: Option<PlaybackRequest>,
    result: Result<PlaybackStatus>)

  /** `f"Synthesizing: {text[:50]}..."`. */
  function SynthesizingMessage(text: string): (m: string)
    ensures |m| == 17 + Min(50, |text|)
    ensures m[..14] == "Synthesizing: " && m[|m| - 3..] == "..."
    ensures m[14..|m| - 3] == text[..Min(50, |text|)]
  {
    "Synthesizing: " + text[..Min(50, |text|)] + "..."
  }

  /** The nested `notify`: nothing happens without an observer; otherwise
      the observer receives the notification and may raise. */
  function Notify(observer: Option<Observer>, n: Notification): (r: (seq<Notification>, Option<Exception>))
    ensures observer.None? ==> r == ([], None)
    ensures observer.Some? ==> r == ([n], observer.value(n))
  {
    match observer
    case None => ([], None)
    case Some(f) => ([n], f(n))
  }

  /** The `except` clause: report `ERROR` with `str(e)` and re-raise `e`. If
      the report itself raises, that exception is the one that escapes. */
  function Fail(observer: Option<Observer>, notified: seq<Notification>, e: Exception,
                tts: Option<TTSRequest>, playback: Option<PlaybackRequest>): (c: Call)
    ensures c.ttsRequest == tts && c.playbackRequest == playback
    ensures observer.None? ==> c.notified == notified && c.result == Raised(e)
    ensures observer.Some? ==>
              && c.notified == notified + [Notification(Error, Some(e.message))]
              && c.result == Raised(observer.value(Notification(Error, Some(e.message))).GetOr(e))
  {
    var (sent, raised) := Notify(observer, Notification(Error, Some(e.message)));
    Call(notified + sent, tts, playback, Raised(if raised.Some? then raised.value else e))
  }

  /** The TTS request the service builds: the text and language unchanged,
      the voice's id when a voice is given, the dataclass defaults for the
      rest. */
  function TtsRequestFor(text: string, language: string, voice: Option<VoiceModel>): (r: TTSRequest)
    ensures r.text == text && r.language == language
    ensures r.voiceId.Some? <==> voice.Some?
    ensures voice.Some? ==> r.voiceId.value == voice.value.id
    ensures r.audioFormat == WAV && r.speed == 1.0
  {
    TTSRequest(text, if voice.Some? then Some(voice.value.id) else None, language, WAV, 1.0)
  }

  function States(ns: seq<Notification>): (r: seq<SynthPlayState>)
    ensures |r| == |ns|
    ensures forall i :: 0 <= i < |ns| ==> r[i] == ns[i].state
  {
    if ns == [] then [] else [ns[0].state] + States(ns[1..])
  }

  /** `synthesize_and_play`. Whatever the collaborators do: the synthesis
      request carries the text and language unchanged and the voice's id; a
      playback request is made only after synthesis succeeded and carries
      exactly the synthesised bytes, sample rate and channel count; success
      returns a stopped status with playback's duration; without an observer
      nothing is reported (`ReportedStates` covers the reports an observer
      sees). */
  function SynthesizeAndPlay(text: string, language: string, voice: Option<VoiceModel>,
                             observer: Option<Observer>,
                             synthesize: Synthesizer, play: Player): (c: Call)
    ensures c.ttsRequest.Some? ==> c.ttsRequest.value == TtsRequestFor(text, language, voice)
    ensures c.playbackRequest.Some? ==>
              && c.ttsRequest.Some?
              && synthesize(c.ttsRequest.value, voice).Ok?
              && var s := synthesize(c.ttsRequest.value, voice).value;
                 c.playbackRequest.value == PlaybackRequest(s.audioData, s.sampleRate, s.channels)
    ensures c.result.Ok? ==>
              && c.playbackRequest.Some?
              && play(c.playbackRequest.value).Ok?
              && c.result.value == PlaybackStatus(false, play(c.playbackRequest.value).value.durationSeconds)
    ensures observer.None? ==> c.notified == []
  {
    var (sent1, raised1) := Notify(observer, Notification(Synthesizing, Some(SynthesizingMessage(text))));
    if raised1.Some? then Fail(observer, sent1, raised1.value, None, None)
    else
      var request := TtsRequestFor(text, language, voice);
      match synthesize(request, voice)
      case Raised(e) => Fail(observer, sent1, e, Some(request), None)
      case Ok(response) =>
        var (sent2, raised2) := Notify(observer, Notification(Playing, Some("Playing audio...")));
        if raised2.Some? then Fail(observer, sent1 + sent2, raised2.value, Some(request), None)
        else
          var playback := PlaybackRequest(response.audioData, response.sampleRate, response.channels);
          match play(playback)
          case Raised(e) => Fail(observer, sent1 + sent2, e, Some(request), Some(playback))
          case Ok(status) =>
            var (sent3, raised3) := Notify(observer, Notification(Completed, Some("Playback complete")));
            if raised3.Some? then Fail(observer, sent1 + sent2 + sent3, raised3.value, Some(request), Some(playback))
            else Call(sent1 + sent2 + sent3, Some(request), Some(playback),
                      Ok(PlaybackStatus(false, status.durationSeconds)))
  }

  /* ---------------- properties ---------------- */

  /** With an observer, whatever the collaborators and the observer do: the
      first report is SYNTHESIZING, the call fails exactly when the last
      report is ERROR, it succeeds exactly when the reports are SYNTHESIZING,
      PLAYING, COMPLETED, and ERROR is never followed by another report. */
  lemma ReportedStates(text: string, language: string, voice: Option<VoiceModel>, f: Observer,
                       synthesize: Synthesizer, play: Player)
    ensures var c := SynthesizeAndPlay(text, language, voice, Some(f), synthesize, play);
            var st := States(c.notified);
            && |st| >= 2 && st[0] == Synthesizing
            && (c.result.Raised? <==> st[|st| - 1] == Error)
            && (c.result.Ok? <==> st == [Synthesizing, Playing, Completed])
            && (forall i :: 0 <= i < |st| - 1 ==> st[i] != Error)
  {
    var c := SynthesizeAndPlay(text, language, voice, Some(f), synthesize, play);
    var st := States(c.notified);
    var n1 := Notification(Synthesizing, Some(SynthesizingMessage(text)));
    var n2 := Notification(Playing, Some("Playing audio..."));
    var n3 := Notification(Completed, Some("Playback complete"));
    var request := TtsRequestFor(text, language, voice);
    if f(n1).Some? || synthesize(request, voice).Raised? {
      assert st == [Synthesizing, Error];
    } else {
      var response := synthesize(request, voice).value;
      var playback := PlaybackRequest(response.audioData, response.sampleRate, response.channels);
      if f(n2).Some? || play(playback).Raised? {
        assert st == [Synthesizing, Playing, Error];
      } else if f(n3).Some? {
        assert st == [Synthesizing, Playing, Completed, Error];
      } else {
        assert c.notified == [n1, n2, n3];
      }
    }
  }

  /** An observer that never raises. */
  ghost predicate Quiet(f: Observer) {
    forall n :: f(n).None?
  }

  /** Synthesis and playback both succeed: the observer sees SYNTHESIZING,
      PLAYING, COMPLETED in that order, and the caller gets a status that is
      no longer playing with the duration playback reported. */
  lemma SuccessTrace(text: string, language: string, voice: Option<VoiceModel>, f: Observer,
                     synthesize: Synthesizer, play: Player)
    requires Quiet(f)
    requires synthesize(TtsRequestFor(text, language, voice), voice).Ok?
    requires var s := synthesize(TtsRequestFor(text, language, voice), voice).value;
             play(PlaybackRequest(s.audioData, s.sampleRate, s.channels)).Ok?
    ensures var c := SynthesizeAndPlay(text, language, voice, Some(f), synthesize, play);
            var s := synthesize(TtsRequestFor(text, language, voice), voice).value;
            var p := play(PlaybackRequest(s.audioData, s.sampleRate, s.channels)).value;
            && c.notified == [Notification(Synthesizing, Some(SynthesizingMessage(text))),
                              Notification(Playing, Some("Playing audio...")),
                              Notification(Completed, Some("Playback complete"))]
            && c.result == Ok(PlaybackStatus(false, p.durationSeconds))
  {
  }

  /** Synthesis raises: the observer sees exactly SYNTHESIZING then ERROR
      carrying `str(e)`, playback is never asked for, and `e` escapes. */
  lemma SynthesisFailureTrace(text: string, language: string, voice: Option<VoiceModel>, f: Observer,
                              synthesize: Synthesizer, play: Player)
    requires Quiet(f)
    requires synthesize(TtsRequestFor(text, language, voice), voice).Raised?
    ensures var c := SynthesizeAndPlay(text, language, voice, Some(f), synthesize, play);
            var e := synthesize(TtsRequestFor(text, language, voice), voice).error;
            && c.notified == [Notification(Synthesizing, Some(SynthesizingMessage(text))),
                              Notification(Error, Some(e.message))]
            && c.playbackRequest == None
            && c.result == Raised(e)
  {
  }

  /** Playback raises: the observer sees SYNTHESIZING, PLAYING, then ERROR
      carrying `str(e)`, and `e` escapes. */
  lemma PlaybackFailureTrace(text: string, language: string, voice: Option<VoiceModel>, f: Observer,
                             synthesize: Synthesizer, play: Player)
    requires Quiet(f)
    requires synthesize(TtsRequestFor(text, language, voice), voice).Ok?
    requires var s := synthesize(TtsRequestFor(text, language, voice), voice).value;
             play(PlaybackRequest(s.audioData, s.sampleRate, s.channels)).Raised?
    ensures var c := SynthesizeAndPlay(text, language, voice, Some(f), synthesize, play);
            var s := synthesize(TtsRequestFor(text, language, voice), voice).value;
            var e := play(PlaybackRequest(s.audioData, s.sampleRate, s.channels)).error;
            && States(c.notified) == [Synthesizing, Playing, Error]
            && c.notified[2].message == Some(e.message)
            && c.result == Raised(e)
  {
  }

  /** With no observer nothing is reported, and the outcome is the one a
      silent observer would have produced. */
  lemma NoObserverSameOutcome(text: string, language: string, voice: Option<VoiceModel>, f: Observer,
                              synthesize: Synthesizer, play: Player)
    requires Quiet(f)
    ensures var bare := SynthesizeAndPlay(text, language, voice, None, synthesize, play);
            var watched := SynthesizeAndPlay(text, language, voice, Some(f), synthesize, play);
            && bare.notified == []
            && bare.result == watched.result
            && bare.ttsRequest == watched.ttsRequest
            && bare.playbackRequest == watched.playbackRequest
  {
  }

  /* ---------------- against the TTSResponse record as declared ---------------- */

  /** `self._tts.synthesize(request, voice)` returning the declared
      `TTSResponse`, which has no `channels` attribute. */
  type DeclaredSynthesizer = (TTSRequest, Option<VoiceModel>) -> Result<TTSResponse>

  const MissingChannels := Exception(AttributeError, "'TTSResponse' object has no attribute 'channels'")

  /** `synthesize_and_play` as written, against the declared response record:
      reading `tts_response.channels` raises once synthesis has succeeded and
      PLAYING has been reported, so playback is never requested and no call
      succeeds. */
  function SynthesizeAndPlayAsWritten(text: string, language: string, voice: Option<VoiceModel>,
                                      observer: Option<Observer>,
                                      synthesize: DeclaredSynthesizer, play: Player): (c: Call)
    ensures c.result.Raised? && c.playbackRequest.None?
    ensures c.ttsRequest.Some? ==> c.ttsRequest.value == TtsRequestFor(text, language, voice)
  {
    var (sent1, raised1) := Notify(observer, Notification(Synthesizing, Some(SynthesizingMessage(text))));
    if raised1.Some? then Fail(observer, sent1, raised1.value, None, None)
    else
      var request := TtsRequestFor(text, language, voice);
      match synthesize(request, voice)
      case Raised(e) => Fail(observer, sent1, e, Some(request), None)
      case Ok(response) =>
        var (sent2, raised2) := Notify(observer, Notification(Playing, Some("Playing audio...")));
        if raised2.Some? then Fail(observer, sent1 + sent2, raised2.value, Some(request), None)
        else Fail(observer, sent1 + sent2, MissingChannels, Some(request), None)
  }

  /** The discrepancy: with a silent observer and a synthesis that
      succeeds, the as-written service reports SYNTHESIZING, PLAYING, ERROR
      and raises AttributeError without asking for playback, where the
      intended service completes (`SuccessTrace`). */
  lemma MissingChannelsBreaksSuccess(text: string, language: string, voice: Option<VoiceModel>, f: Observer,
                                     synthesize: DeclaredSynthesizer, play: Player)
    requires Quiet(f)
    requires synthesize(TtsRequestFor(text, language, voice), voice).Ok?
    ensures var c := SynthesizeAndPlayAsWritten(text, language, voice, Some(f), synthesize, play);
            && States(c.notified) == [Synthesizing, Playing, Error]
            && c.notified[2].message == Some(MissingChannels.message)
            && c.result == Raised(MissingChannels)
  {
    var c := SynthesizeAndPlayAsWritten(text, language, voice, Some(f), synthesize, play);
    assert |c.notified| == 3;
  }
}

=== FILE: text.dfy ===
/**
  String helpers the Python code gets from `str`: ASCII case folding,
  substring search (`in`), and fixed-width decimal fields.
 */
module Text {
  import opened Common

  /** `c.lower()` for ASCII; every other character is left as it is. */
  function LowerChar(c: char): char {
    if 'A' <= c <= 'Z' then (c as int - 'A' as int + 'a' as int) as char else c
  }

  function Lower(s: string): (r: string)
    ensures |r| == |s|
    ensures forall i :: 0 <= i < |s| ==> r[i] == LowerChar(s[i])
  {
    if s == [] then [] else [LowerChar(s[0])] + Lower(s[1..])
  }

  /** `sub` occurs in `s` starting at index `i`. */
  predicate OccursAt(s: string, sub: string, i: nat) {
    i + |sub| <= |s| && s[i..i + |sub|] == sub
  }

  /** Python's `sub in s`. */
  predicate Contains(s: string, sub: string) {
    exists i: nat :: i <= |s| && OccursAt(s, sub, i)
  }

  lemma ContainsAppend(s: string, t: string, sub: string)
    requires Contains(s, sub)
    ensures Contains(s + t, sub)
  {
    var i: nat :| i <= |s| && OccursAt(s, sub, i);
    assert (s + t)[i..i + |sub|] == s[i..i + |sub|];
    assert OccursAt(s + t, sub, i);
  }

  lemma ContainsPrepend(s: string, t: string, sub: string)
    requires Contains(t, sub)
    ensures Contains(s + t, sub)
  {
    var i: nat :| i <= |t| && OccursAt(t, sub, i);
    assert (s + t)[|s| + i..|s| + i + |sub|] == t[i..i + |sub|];
    assert OccursAt(s + t, sub, |s| + i);
  }

  predicate IsDigit(c: char) { '0' <= c <= '9' }

  function DigitChar(d: nat): char
    requires d < 10
  {
    ('0' as int + d) as char
  }

  function DigitValue(c: char): nat
    requires IsDigit(c)
  {
    c as int - '0' as int
  }

  function Pow10(w: nat): (p: nat)
    ensures p >= 1
  {
    if w == 0 then 1 else 10 * Pow10(w - 1)
  }

  /** `n` written with exactly `w` decimal digits, zero-padded on the left
      (the `%04d`-style fields of an ISO timestamp). */
  function Digits(n: nat, w: nat): (r: string)
    ensures |r| == w
    ensures forall i :: 0 <= i < |r| ==> IsDigit(r[i])
  {
    if w == 0 then [] else Digits(n / 10, w - 1) + [DigitChar(n % 10)]
  }

  /** The value of a string of decimal digits; `None` when any character is
      not a digit. The empty string reads as 0. */
  function ParseDigits(s: string): (r: Option<nat>)
    ensures r.Some? <==> forall i :: 0 <= i < |s| ==> IsDigit(s[i])
    ensures r.Some? ==> r.value < Pow10(|s|)
  {
    if s == [] then Some(0)
    else if !IsDigit(s[|s| - 1]) then None
    else
      match ParseDigits(s[..|s| - 1])
      case None => None
      case Some(v) => Some(10 * v + DigitValue(s[|s| - 1]))
  }

  /** Reading a fixed-width field back gives the number that was written,
      provided it fits in the width. */
  lemma {:induction false} ParseDigitsOfDigits(n: nat, w: nat)
    requires n < Pow10(w)
    ensures ParseDigits(Digits(n, w)) == Some(n)
  {
    if w > 0 {
      var s := Digits(n, w);
      assert s[..|s| - 1] == Digits(n / 10, w - 1);
      ParseDigitsOfDigits(n / 10, w - 1);
      assert DigitValue(s[|s| - 1]) == n % 10;
    }
  }

  /** `str(n)` for a natural number. */
  function NatToString(n: nat): (r: string)
    ensures |r| >= 1
    ensures forall i :: 0 <= i < |r| ==> IsDigit(r[i])
  {
    if n < 10 then [DigitChar(n)] else NatToString(n / 10) + [DigitChar(n % 10)]
  }

  /** `str(i)` for an integer. */
  function IntToString(i: int): string {
    if i < 0 then "-" + NatToString(-i) else NatToString(i)
  }
}
